=== FILE: README.md ===
# Timesheet and time-off approval workflow, in Dafny

This project models the approval workflow of an employee timesheet and
time-off system. The model is pure and functional. Each database
collection is a map from document id to document. Each request handler is
a function from the store and the request to either a new store or a typed
API error.

What is modelled:

- **Request validators** (`Validation`). These are the express-validator
  rule lists for timesheets, time-off requests, reviews, registration and
  login. Every rule is checked, and each failing rule adds its own
  violation. The `trim()` sanitizers rewrite the body that the controller
  reads.
- **Documents and their hooks** (`TimesheetSchema`, `TimeOffSchema`). This
  covers:
  - the entry constraints: day enum, hours in [0, 24], a trimmed required
    project, and a description of at most 500 characters;
  - the time-off constraints: `toDate >= fromDate`, a reason of at most
    1000 characters, and a rejection reason of at most 500;
  - the pre-save hooks that set `totalHours` and `daysRequested`;
  - the unique (employee, weekStartDate) index, kept as a store invariant.
- **Controllers** (`TimesheetController`, `TimeOffController`). This
  covers:
  - the timesheet upsert;
  - submit;
  - review (approve or reject), with each check in the order the source
    makes it;
  - the time-off overlap check and create;
  - get-by-id with its ownership check;
  - the "my" and "pending" listings, with their filter, sort key and
    direction, skip and limit, `total` and `totalPages`.
- **Middleware and routes** (`Auth`, `Routes`). This covers:
  - the `auth` session/active-account gate;
  - the `authorize(...roles)` role gate;
  - the two routers: which method and path reach which handler, and
    which guard chain runs in front of it.

  `Routes.Handle` runs one request through the whole chain.
- **Date arithmetic** (`Dates`, `Calendar`, `DateUtils`). This covers:
  - the back end's week end (start + 6 days);
  - `daysRequested`, computed by ceiling division;
  - the web client's `getWeekDates`, `getDaysOfWeek` and
    `calculateDaysBetween`, over a proleptic Gregorian calendar with
    `setDate` normalisation.

Some inputs cannot be computed inside the model, so they are parameters:

- The current time (`new Date()`) is `now`.
- The id the database assigns an inserted document is `freshId`.
- The natural order in which a collection returns its documents is
  `order`. It must list every key exactly once. Documents whose sort keys
  tie may therefore come back in any order.
- express-validator's `validationResult` reaches the controllers as a list
  of violations. `Routes` computes that list with the validators, as the
  route chains do.

Where the code's behaviour may surprise a reader, the model follows the
code:

- The upsert resets a timesheet of ANY status to Draft, including an
  approved one (`TimesheetController.UpsertReopensApproved`).
- A rejection reason is optional even when rejecting.
- Timesheet get-by-id checks ownership for employees.
- A time-off request whose `toDate` precedes its `fromDate` passes the
  validator. It then fails schema validation, and the create answers 500
  (`TimeOffController.ReversedPeriodIsServerError`).
- The upsert's `findOne` matches on both the week start and the week end
  (`TimesheetController.Clash` names the mismatch case).
- The `totalHours` the controller computes is overwritten by the pre-save
  hook with the same sum.

## Model

| member | source | states |
|---|---|---|
| Text.Trim | backend/middleware/validation.js:22 | The trimmed string is no longer than the input, has no leading or trailing white space, and is empty exactly when the input is all white space |
| Text.TrimIsInnerSlice | backend/middleware/validation.js:22 | Trimming removes white space at the two ends and nothing else: the result is a slice of the input with only white space before and after it |
| Text.TrimIdempotent | backend/models/Timesheet.js:15-19 | Trimming an already-trimmed string leaves it unchanged, so the sanitizer's trim and the schema's trim agree |
| Domain.DayFromName | backend/models/Timesheet.js:4-8 | A day name is accepted exactly when it is one of the seven enum names, and the day it yields has that name |
| Domain.ReviewedMessage | backend/controllers/timesheetController.js:203-206 | The success message puts the action in the past tense, and it coincides with the as-written message for "approve" |
| Domain.PastTenseOfActions | backend/controllers/timeOffController.js:134-137 | The past tenses of the two review actions are "approved" and "rejected" |
| Domain.ReviewedMessageMisspellsReject | backend/controllers/timesheetController.js:204 | The as-written message for a rejection is "Timesheet rejectd successfully", and the corrected one is "Timesheet rejected successfully" |
| Dates.WeekDates | backend/controllers/timesheetController.js:4-13 | The week starts at the given instant, which is not snapped to a Monday, and ends exactly six days later |
| Dates.JsCeilDiv | backend/controllers/timesheetController.js:83 | Math.ceil of a quotient by a non-zero divisor is the least integer at or above it, for either sign of the divisor |
| Dates.DaysRequested | backend/models/TimeOffRequest.js:54-61 | The day count is the ceiling of the period's length in days plus one, and it is at least 1 whenever toDate >= fromDate |
| Dates.DaysRequestedWholeDays | backend/models/TimeOffRequest.js:56-58 | A period of k whole days counts k + 1 days, so a one-day request counts 1 |
| Calendar.DaysInMonth | frontend/src/utils/dateUtils.ts:6-7 | Every month has between 28 and 31 days |
| Calendar.Weekday | frontend/src/utils/dateUtils.ts:3 | getDay yields a weekday index in 0..6 |
| Calendar.WeekdayCycle | frontend/src/utils/dateUtils.ts:3 | Weekdays repeat every seven days, and 1970-01-01 is a Thursday (4), which anchors Sunday at 0 |
| Calendar.SetDate | frontend/src/utils/dateUtils.ts:6-7 | setDate(n) yields a valid date that is n - getDate() days away from the date it is applied to, even when n lies outside the month |
| Calendar.CivilOf | frontend/src/utils/dateUtils.ts:2 | Every day number has a valid calendar date, and that date maps back to the same day number |
| DateUtils.DaysSinceMonday | frontend/src/utils/dateUtils.ts:3-4 | Stepping back 0..6 days lands on a Monday, and the step is 6 exactly for a Sunday |
| DateUtils.GetWeekDates | frontend/src/utils/dateUtils.ts:1-15 | The computed week start is a valid Monday, and the given date lies within six days after it |
| DateUtils.GetWeekDatesEndInSameMonth | frontend/src/utils/dateUtils.ts:6-7 | When the Monday lies in the date's own month, the week end is the Monday plus six days |
| DateUtils.GetWeekDatesEndInPreviousMonth | frontend/src/utils/dateUtils.ts:6-7 | When the Monday lies in the previous month, the week end is off by that month's length and comes before the Monday |
| DateUtils.GetWeekDatesLeapFebruary | frontend/src/utils/dateUtils.ts:6-7 | For 2024-03-01 the computed week is Monday 2024-02-26 to "Sunday" 2024-02-03 |
| DateUtils.WeekOf | frontend/src/utils/dateUtils.ts:1-15 | The corrected week runs from a Monday to the Sunday six days later and contains the given date |
| DateUtils.WeekOfAgreesOnStart | frontend/src/utils/dateUtils.ts:3-6 | The corrected week and the as-written week start on the same Monday |
| DateUtils.GetDaysOfWeek | frontend/src/utils/dateUtils.ts:37-39 | Seven names, Monday to Sunday in order, each accepted by the schemas' day enum at its own position |
| DateUtils.CalculateDaysBetween | frontend/src/utils/dateUtils.ts:41-46 | The count is at least 1, it is 1 exactly for equal dates, and for ordered dates it equals the server's daysRequested |
| DateUtils.CalculateDaysBetweenSymmetric | frontend/src/utils/dateUtils.ts:44 | Swapping the two dates does not change the count |
| Validation.DayChoicesAreDays | backend/middleware/validation.js:20 | The validator's day choices are exactly the names the schema's day enum accepts |
| Validation.EntryRuleAt | backend/middleware/validation.js:20-23 | An entries.* rule reports a violation at index i exactly when entry i fails it |
| Validation.EntryRuleEmpty | backend/middleware/validation.js:20-23 | An entries.* rule reports nothing exactly when every entry passes it |
| Validation.ValidateTimesheet | backend/middleware/validation.js:17-24 | A timesheet body passes exactly when it is well formed: it has a week start, at least one entry, and every entry passes all four entry rules |
| Validation.ValidateTimesheetRules | backend/middleware/validation.js:17-24 | A violation is reported exactly when its rule fails: a missing week start, a missing or empty entry list, or an entry with a bad day, bad hours, a blank project or an over-long description |
| Validation.SanitizeTimesheet | backend/middleware/validation.js:22 | The sanitized body differs from the original only in the trimmed entry projects |
| Validation.ValidateTimeOff | backend/middleware/validation.js:26-30 | A time-off body passes exactly when both dates are present and the trimmed reason is non-empty and at most 1000 characters |
| Validation.ValidateTimeOffRules | backend/middleware/validation.js:26-30 | A violation is reported exactly when its rule fails: a missing from date, a missing to date, a blank reason, or an over-long reason |
| Validation.ValidateTimeOffAcceptsReversedPeriod | backend/middleware/validation.js:26-30 | A body whose to date precedes its from date passes validation |
| Validation.SanitizeTimeOff | backend/middleware/validation.js:29 | The sanitizer replaces the reason by its trimmed form and changes nothing else. The result is trimmed and no longer than the original, and a validated reason keeps 1..1000 characters |
| Validation.ValidateReview | backend/middleware/validation.js:32-35 | The action error is reported exactly when the action is neither approve nor reject, and the reason error exactly when a reason is present and over 500 characters after trimming |
| Validation.SanitizeReview | backend/middleware/validation.js:34 | The action is unchanged, and a rejection reason stays present or absent and is trimmed |
| Validation.ValidateRegister | backend/middleware/validation.js:3-10 | Each of the six rules (first name, last name, email, password length, employee id, role) reports its error exactly when it fails, and the body passes exactly when it is well formed |
| Validation.ValidateLogin | backend/middleware/validation.js:12-15 | A login passes exactly when the email is valid and the password is non-empty, and each failure has its own violation |
| Auth.Authenticate | backend/middleware/auth.js:3-21 | The request proceeds exactly when the session names an existing, active account, and that account becomes the user. Every refusal is a 401. "Login required" is returned exactly when no one is signed in, and the session is destroyed exactly when someone was |
| Auth.Authorize | backend/middleware/auth.js:23-32 | The request proceeds exactly when the user's role is among the allowed roles; otherwise it gets a 403 |
| TimesheetSchema.TotalHoursAppend | backend/models/Timesheet.js:71 | The hours total of two entry lists joined is the sum of their totals |
| TimesheetSchema.TotalHoursBounds | backend/models/Timesheet.js:69-76 | With every entry in [0, 24] the total lies between 0 and 24 times the number of entries, and it is 0 for no entries |
| TimesheetSchema.CastEntry | backend/models/Timesheet.js:3-25 | An entry casts exactly when its day is an enum name and its hours are present; the cast keeps day and hours and trims project and description |
| TimesheetSchema.CastEntries | backend/models/Timesheet.js:41 | An entry list casts exactly when every entry does, position by position |
| TimesheetSchema.Save | backend/models/Timesheet.js:69-76 | A save succeeds exactly when every entry is valid, and the saved document has totalHours equal to the sum of its entries' hours with nothing else changed; a failure is a 500 |
| TimeOffSchema.Save | backend/models/TimeOffRequest.js:54-61 | A save succeeds exactly when the period is in order and the reason and rejection reason are within their limits. The saved document has daysRequested >= 1, computed from its dates, with nothing else changed. A failure is a 500 |
| TimeOffSchema.SaveValidatingFirst | backend/models/TimeOffRequest.js:46-49 | When validation runs before the hook on a document with no daysRequested, the save fails with 500; otherwise it is the ordinary save |
| Listing.Filter | backend/controllers/timesheetController.js:66-72 | The query keeps exactly the matching documents, without repetitions, and never more than it was given |
| Listing.NaturalOrder | backend/controllers/timesheetController.js:72 | Every collection has an order listing each document exactly once, so the listings' requirement on the collection's natural order can always be met |
| Listing.Sort | backend/controllers/timesheetController.js:73 | The sort returns a permutation of its input, in key order |
| Listing.Window | backend/controllers/timesheetController.js:74-75 | A negative skip is a 500. Otherwise the window is the run of documents starting at (page - 1) * limit, no longer than the limit, and full unless the collection runs out |
| Listing.TotalPages | backend/controllers/timesheetController.js:83 | totalPages is null exactly for a zero limit. For a positive limit it is the least page count whose pages hold every document. For a negative limit it is the JavaScript ceiling of the negative quotient |
| Listing.EveryItemOnItsPage | backend/controllers/timesheetController.js:74-83 | Every document of the sorted result appears on page k / limit + 1, at position k % limit, and that page is at most totalPages |
| Listing.PastLastPageEmpty | backend/controllers/timesheetController.js:74-83 | Pages after totalPages are empty |
| Listing.WindowKeeps | backend/controllers/timesheetController.js:72-75 | A page of a sorted listing without repetitions is itself sorted and without repetitions |
| Listing.ListPage | backend/controllers/timesheetController.js:72-86 | A listing fails exactly on a negative skip. Otherwise there is an arrangement of every matching document, each once and in key order, whose size is total and whose skip/limit window is exactly the page's items. totalPages and currentPage follow the query |
| TimesheetController.FindWeek | backend/controllers/timesheetController.js:25-29 | The lookup finds a timesheet of the employee with that start and end if one exists, and answers none only when none does |
| TimesheetController.CreateOrUpdate | backend/controllers/timesheetController.js:15-61 | Validation errors are answered first. Any other failure is a 500. Success requires a week start and entries that cast, and is the upsert of those entries |
| TimesheetController.UpsertWeek | backend/controllers/timesheetController.js:23-56 | The upsert succeeds exactly when the entries are valid and no same-start week with another end exists. A new week is a fresh Draft with nothing reviewed. An existing week gets the new entries, their total and Draft, and keeps everything else. Other timesheets are unchanged |
| TimesheetController.Submit | backend/controllers/timesheetController.js:114-146 | The checks come in order: 404 when missing, 403 when not the owner, 400 when not Draft, 400 when empty. When every check passes, the submit succeeds exactly when the schema accepts the entries, and otherwise answers 500. On success the timesheet equals the stored one with status Submitted, submittedAt = now and totalHours the sum of its entries, and other timesheets are unchanged |
| TimesheetController.Review | backend/controllers/timesheetController.js:172-211 | The checks come in order: validation, 404, not Submitted, then invalid action. When every check passes, the review succeeds exactly when the schema accepts the entries, and otherwise answers 500. On success the timesheet equals the stored one with status Approved or Rejected, reviewedAt = now and reviewedBy = the reviewer, the trimmed supplied reason on a rejection, and totalHours the sum of its entries. Other timesheets are unchanged |
| TimesheetController.GetById | backend/controllers/timesheetController.js:93-112 | A timesheet is returned exactly when it exists and the caller is a manager or its owner. Otherwise the answer is 404 when it is missing and 403 when it is not |
| TimesheetController.MineSelection | backend/controllers/timesheetController.js:63-79 | "My" timesheets are exactly the caller's, with the status filter applied when one is given, and total counts them |
| TimesheetController.MineOrder | backend/controllers/timesheetController.js:72-73 | "My" timesheets come newest week first |
| TimesheetController.PendingSelection | backend/controllers/timesheetController.js:150-158 | Pending timesheets are exactly the Submitted ones, and total counts them |
| TimesheetController.PendingOrder | backend/controllers/timesheetController.js:152-153 | Pending timesheets come earliest submission first |
| TimesheetController.ListMine | backend/controllers/timesheetController.js:63-91 | The "my" listing fails exactly on a negative skip. Otherwise there is an arrangement of all the caller's timesheets matching the status filter, each once and newest week first. Its size is total, its skip/limit window is exactly the page's items, and totalPages and currentPage follow the query |
| TimesheetController.ListPending | backend/controllers/timesheetController.js:148-170 | The pending listing fails exactly on a negative skip. Otherwise there is an arrangement of all Submitted timesheets, each once and earliest submission first. Its size is total, its skip/limit window is exactly the page's items, and totalPages and currentPage follow the query |
| TimesheetController.ValidatedEntriesSave | backend/middleware/validation.js:17-24 | A validated and sanitized body's entries cast one-to-one into entries the schema accepts |
| TimesheetController.NoClashUnderInvariant | backend/models/Timesheet.js:78 | In a consistent store every week with a given start ends six days later, so the upsert's lookup cannot miss an existing week |
| TimesheetController.RoutedUpsertSucceeds | backend/controllers/timesheetController.js:15-61 | On a consistent store, every body that passes the validator is upserted successfully |
| TimesheetController.UpsertPreservesInvariant | backend/controllers/timesheetController.js:25-56 | The upsert keeps one timesheet per employee and week start, and keeps every timesheet's totals, dates and status history consistent |
| TimesheetController.SubmitPreservesInvariant | backend/controllers/timesheetController.js:114-146 | On a consistent store, submit never answers 500 and keeps the store consistent |
| TimesheetController.ReviewPreservesInvariant | backend/controllers/timesheetController.js:172-211 | On a consistent store, review never answers 500 and keeps the store consistent |
| TimesheetController.SubmitSucceeds | backend/controllers/timesheetController.js:134-145 | On a consistent store, the owner's non-empty Draft is submitted: the answer is a success and the timesheet becomes Submitted |
| TimesheetController.ReviewSucceeds | backend/controllers/timesheetController.js:190-206 | On a consistent store, a validated approve or reject of a Submitted timesheet succeeds, and the timesheet becomes Approved or Rejected |
| TimesheetController.RoutedReviewHasAction | backend/controllers/timesheetController.js:190-197 | A validated review body never reaches the "Invalid action" answer |
| TimesheetController.DecisionsHoldAgainstSubmitAndReview | backend/controllers/timesheetController.js:126-187 | An Approved or Rejected timesheet can be neither submitted nor reviewed again |
| TimesheetController.UpsertReopensApproved | backend/controllers/timesheetController.js:33-37 | An upsert of an approved week succeeds in place and turns it back into a Draft. reviewedAt, reviewedBy, rejectionReason and submittedAt stay as they were |
| TimesheetController.ExampleCreatesDraft | backend/controllers/timesheetController.js:44-56 | A two-entry body for an empty store creates a Draft timesheet with the fresh id, 14 hours in total, ending six days after its start |
| TimeOffController.PrepareCreate | backend/controllers/timeOffController.js:4-32 | Validation errors are answered first, and a missing date is a 500. The request is refused as a conflict exactly when an active request of the caller overlaps it. Otherwise a Pending request of the caller is built with the given dates and the trimmed reason |
| TimeOffController.Create | backend/controllers/timeOffController.js:4-45 | Create succeeds exactly when the checks pass and the schema accepts the request. It then inserts exactly one document, under the fresh id, with daysRequested >= 1 computed from its dates, and changes nothing else. A schema failure is a 500 |
| TimeOffController.CreateAsWritten | backend/controllers/timeOffController.js:27-34 | The code as written answers the checks' errors exactly as the corrected create does |
| TimeOffController.CreateAsWrittenNeverCreates | backend/models/TimeOffRequest.js:46-49 | With validation before the pre-save hook, no create ever succeeds, and every request that passes the checks gets a 500 |
| TimeOffController.Review | backend/controllers/timeOffController.js:101-142 | The checks come in order: validation, 404, not Pending, then invalid action. When every check passes, the review succeeds exactly when the schema accepts the request with its decided rejection reason, and otherwise answers 500. On success the request equals the stored one with status Approved or Rejected, reviewedAt = now and reviewedBy = the reviewer, the trimmed supplied reason on a rejection, and daysRequested recomputed from its period. Other requests are unchanged |
| TimeOffController.GetById | backend/controllers/timeOffController.js:144-163 | A request is returned exactly when it exists and the caller is a manager or its owner. Otherwise the answer is 404 when it is missing and 403 when it is not |
| TimeOffController.MineSelection | backend/controllers/timeOffController.js:47-63 | "My" requests are exactly the caller's, with the status filter applied when one is given, and total counts them |
| TimeOffController.MineOrder | backend/controllers/timeOffController.js:56-57 | "My" requests come newest first |
| TimeOffController.PendingSelection | backend/controllers/timeOffController.js:79-87 | Pending requests are exactly the Pending ones, and total counts them |
| TimeOffController.PendingOrder | backend/controllers/timeOffController.js:81-82 | Pending requests come oldest first |
| TimeOffController.ListMine | backend/controllers/timeOffController.js:47-75 | The "my" listing fails exactly on a negative skip. Otherwise there is an arrangement of all the caller's requests matching the status filter, each once and newest first. Its size is total, its skip/limit window is exactly the page's items, and totalPages and currentPage follow the query |
| TimeOffController.ListPending | backend/controllers/timeOffController.js:77-99 | The pending listing fails exactly on a negative skip. Otherwise there is an arrangement of all Pending requests, each once and oldest first. Its size is total, its skip/limit window is exactly the page's items, and totalPages and currentPage follow the query |
| TimeOffController.CreatePreservesInvariant | backend/controllers/timeOffController.js:13-34 | A successful create keeps every employee's active requests pairwise non-overlapping, and keeps every request's days count and review fields consistent |
| TimeOffController.ReviewPreservesInvariant | backend/controllers/timeOffController.js:101-130 | A successful review keeps active requests non-overlapping and every request consistent |
| TimeOffController.ReviewSucceeds | backend/controllers/timeOffController.js:119-139 | On a consistent store, a validated approve or reject of a Pending request succeeds, and the request becomes Approved or Rejected |
| TimeOffController.RoutedReviewHasAction | backend/controllers/timeOffController.js:119-126 | A validated review body never reaches the "Invalid action" answer |
| TimeOffController.RoutedReviewSaves | backend/controllers/timeOffController.js:119-130 | On a consistent store, a validated review never answers 500 |
| TimeOffController.RoutedCreateSucceeds | backend/controllers/timeOffController.js:4-45 | A validated body with ordered dates and no conflicting active request is created as Pending, with the inclusive day count of its period |
| TimeOffController.ReversedPeriodIsServerError | backend/models/TimeOffRequest.js:13-22 | A validated body whose to date precedes its from date ends in a 500 |
| TimeOffController.OnlyOwnActiveRequestsBlock | backend/controllers/timeOffController.js:13-19 | Requests of other employees and rejected requests never cause a conflict |
| TimeOffController.AdjacentPeriods | backend/controllers/timeOffController.js:17 | For any store, a period that starts on the last instant of one of the user's active requests conflicts with it. A period that starts after the user's only active request ends, such as the next day, does not |
| TimeOffController.DecisionsAreFinal | backend/controllers/timeOffController.js:115-117 | An Approved or Rejected request cannot be reviewed again |
| Routes.Route | backend/routes/timesheets.js:14-19 | A route that carries an id has a non-empty id taken from the first path segment, and only the timesheet router has a submit route |
| Routes.GetOneSegment | backend/routes/timesheets.js:15-17 | GET /x is a fetch of x exactly when x is neither "my" nor "pending", which reach their own listings |
| Routes.TimeOffHasNoSubmit | backend/routes/timeOff.js:13-17 | The time-off router has no submit route |
| Routes.Admit | backend/routes/timesheets.js:14-19 | A guard chain refuses only with a 401, a 403 or a 500, and it destroys the session only when the session is invalid |
| Routes.AdmitChain | backend/routes/timesheets.js:14-19 | Every route's chain refuses exactly what auth refuses, then refuses non-managers on the manager-only routes, and admits the signed-in user otherwise |
| Routes.Validated | backend/routes/timesheets.js:14-19 | The create and review routes run their own validator and sanitizer, and the other routes run none |
| Routes.Handle | backend/routes/timesheets.js:14-19 | An unknown route is a 404 that changes nothing. Accounts never change, and the session is destroyed only on an invalid session. What an admitted request gets is stated by Routes.AdmittedReachesHandler |
| Routes.SheetHandler | backend/routes/timesheets.js:14-19 | A timesheet handler touches only timesheets, and changes nothing on failure. Routes.SheetHandlerWrites and Routes.SheetHandlerReads tie each endpoint to its controller |
| Routes.TimeOffHandler | backend/routes/timeOff.js:13-17 | A time-off handler touches only time-off requests, and changes nothing on failure. Routes.TimeOffHandlerWrites and Routes.TimeOffHandlerReads tie each endpoint to its controller |
| Routes.SheetHandlerWrites | backend/routes/timesheets.js:14-19 | Create, submit and review answer exactly with their controller's error when it fails. Otherwise the timesheets become the controller's store, and the answer names the written timesheet: 201 for a created week and 200 for an updated one, 200 for submit, and 200 with the past-tense message for a review |
| Routes.SheetHandlerReads | backend/routes/timesheets.js:15-17 | The two listings and the fetch answer exactly with their controller's error or result, and change nothing |
| Routes.TimeOffHandlerWrites | backend/routes/timeOff.js:13-17 | Create and review answer exactly with their controller's error when it fails. Otherwise the requests become the controller's store, and the answer is 201 for the created request and 200 with the past-tense message for a review; a submit path is a 404 |
| Routes.TimeOffHandlerReads | backend/routes/timeOff.js:14-16 | The two listings and the fetch answer exactly with their controller's error or result, and change nothing |
| Routes.AdmittedReachesHandler | backend/routes/timesheets.js:14-19 | A request its route's chain admits gets exactly what its router's handler answers, given the errors and the sanitized body of that chain's validator |
| Routes.FetchLeavesOwnershipToController | backend/routes/timesheets.js:17 | A signed-in user fetching through either router gets the document exactly when they are a manager or its owner, and nothing changes |
| Routes.SignedOutIsRefused | backend/middleware/auth.js:5-7 | Any route reached without a signed-in user is a 401 that changes nothing |
| Routes.EmployeesCannotReview | backend/routes/timesheets.js:16-19 | An employee reaching a pending listing or a review route gets a 403 and nothing changes |
| Routes.RoutedReviewNeverInvalidAction | backend/routes/timesheets.js:19 | Through the routers, no request with a string-valued body ever gets the "Invalid action" answer |
| Routes.SheetHandlerPreservesInvariant | backend/models/Timesheet.js:78 | Every timesheet handler keeps one timesheet per employee and week, with consistent documents |
| Routes.TimeOffHandlerPreservesInvariant | backend/controllers/timeOffController.js:13-25 | Every time-off handler keeps each employee's active requests non-overlapping, with consistent documents |
| Routes.HandlePreservesInvariants | backend/routes/timeOff.js:13-17 | Any request through either router keeps both collections consistent |

## Left out

- Time zones and daylight saving time. Instants are integer milliseconds, and the client's local calendar is taken to be UTC.
- `toISOString` and the date strings the client builds from it. They are formatting.
- ISO-8601 parsing and `isEmail`. A date field is represented by the instant it parses to, and `isEmail` is a parameter.
- Floating-point hours. Hours are `real`, so sums are exact, unlike JavaScript's IEEE-754 addition.
- String lengths. They are counted in `char`s, not UTF-16 code units.
- Concurrency: the check-then-insert races of the overlap check and the upsert, and concurrent reviews. Each handler is one atomic step.
- `populate` of the employee and reviewer fields, the `createdAt`/`updatedAt` timestamps, and `console.error`. `createdAt` is stored once from `now`, and the rest is presentation.
- ObjectId cast errors from malformed ids, and database errors in general, which the catch blocks answer with 500. Ids are strings, and only the 500s that the model's own data can cause are modelled.
- Query parameters that are not integers or arrive as strings. `page` and `limit` are integers, and `currentPage` is returned as a number rather than echoed as a string.
- A status filter given as an array, or any other non-string value.
- Body fields that arrive as JSON arrays, numbers or objects where a string is expected (`action`, `reason`, `rejectionReason`, an entry's `day` or `project`). The payloads hold strings, so the validators' and sanitizers' handling of other JSON values is not modelled.
- The catch path of `auth` ("Invalid session."), which only a database failure reaches.
- The register and login controllers. Only their validators are modelled, because the controllers and the User model are not part of this model.
- Trailing slashes, and other path forms Express would also accept.
- `formatDate` and `formatDateTime` of the client date helpers. They are locale formatting.
- The natural order of a collection, the clock and the inserted id. They are parameters, because they come from the database and the runtime.
- TimesheetController.CreateOrUpdate: the requires `UniqueWeeks(store)` stands for the unique index on (employee, weekStartDate), which the database enforces. A store that violates it is not modelled.
- TimesheetSchema.Save: only the entry constraints are checked. The other required fields are always present once a document has been built by the controller.

## Findings

| source | as written | input that shows it | evidently intended | confidence | as-written member | corrected member |
|---|---|---|---|---|---|---|
| frontend/src/utils/dateUtils.ts:6-7 | The second `setDate(diff + 6)` is applied to the date already moved to Monday, so when that Monday lies in the previous month the day number is read in the wrong month | 2024-03-01 gives Monday 2024-02-26 and a week end of 2024-02-03 | The week end is the Monday plus six days (2024-03-03) | not executed | DateUtils.GetWeekDatesLeapFebruary | DateUtils.WeekOf |
| backend/controllers/timesheetController.js:204 | The success message appends "d" to the action, which misspells the rejection (the same happens at backend/controllers/timeOffController.js:135) | action "reject" gives "Timesheet rejectd successfully" | "Timesheet rejected successfully" | not executed | Domain.ReviewedMessageMisspellsReject | Domain.ReviewedMessage |
| backend/models/TimeOffRequest.js:46-49 | daysRequested is required, but only the pre-save hook sets it, and Mongoose validates a document before it runs pre('save') hooks | any valid create, e.g. a one-day request with a reason and no conflict, is answered with 500 | The hook's value satisfies the requirement, and the request is stored | not executed; relies on Mongoose running validation before pre-save hooks | TimeOffController.CreateAsWrittenNeverCreates | TimeOffController.Create |

The rest of the model uses the corrected members. The review routes answer with `Domain.ReviewedMessage`, and the time-off create route runs `TimeOffController.Create`. The as-written members `Domain.ReviewedMessageAsWritten` and `TimeOffController.CreateAsWritten` appear only in the lemmas that exhibit the discrepancies.

=== FILE: auth.dfy ===
/**
 * The middleware of `middleware/auth.js`: `auth` admits a request whose
 * session names an existing, active account, and `authorize(...roles)`
 * admits a signed-in user whose role is one of `roles`.
 */
module Auth {
  import opened Wrappers
  import opened Domain

  /** `req.session`: absent, or present with or without a signed-in user's id. */
  datatype Session = Session(user: Option<Id>)

  /** The user collection, by id. */
  type Accounts = map<Id, User>

  /** A gate's verdict: go on with the signed-in user, or answer with an error and maybe end the session. */
  datatype Gate = Proceed(user: User) | Deny(error: ApiError, destroySession: bool)

  predicate SignedIn(session: Option<Session>) {
    session.Some? && session.value.user.Some?
  }

  /**
   * `auth`: no session or no user in it is 401 "Please login"; a user id
   * that names no account, or an inactive one, is 401 and ends the session.
   */
  function Authenticate(session: Option<Session>, accounts: Accounts): (g: Gate)
    ensures g.Proceed? <==> SignedIn(session) && session.value.user.value in accounts
                            && accounts[session.value.user.value].active
    ensures g.Proceed? ==> g.user == accounts[session.value.user.value]
    ensures g.Deny? ==> g.error.Status() == 401
    ensures g.Deny? ==> (g.error == LoginRequired <==> !SignedIn(session))
    ensures g.Deny? ==> (g.destroySession <==> SignedIn(session))
  {
    if !SignedIn(session) then Deny(LoginRequired, false)
    else
      var id := session.value.user.value;
      if id !in accounts || !accounts[id].active then Deny(InvalidSession, true)
      else Proceed(accounts[id])
  }

  /** `authorize(...roles)`: None lets the request through, otherwise the error to answer with. */
  function Authorize(roles: seq<Role>, user: User): (r: Option<ApiError>)
    ensures r.None? <==> user.role in roles
    ensures r.Some? ==> r.value == InsufficientPermissions && r.value.Status() == 403
  {
    if user.role in roles then None else Some(InsufficientPermissions)
  }
}

=== FILE: calendar.dfy ===
/**
 * The proleptic Gregorian calendar that JavaScript `Date` objects use for
 * their local-time accessors (`getDate`, `getDay`, `setDate`). Days are
 * counted from 1970-01-01, the `Date` epoch; local time is taken to be UTC.
 */
module Calendar {

  /** A calendar date; `Valid` when the month and the day of the month exist. */
  datatype Civil = Civil(year: int, month: int, day: int) {
    predicate Valid() {
      1 <= month <= 12 && 1 <= day <= DaysInMonth(year, month)
    }
  }

  predicate IsLeap(y: int) {
    y % 4 == 0 && (y % 100 != 0 || y % 400 == 0)
  }

  function DaysInMonth(y: int, m: int): (n: int)
    requires 1 <= m <= 12
    ensures 28 <= n <= 31
  {
    if m == 2 then (if IsLeap(y) then 29 else 28)
    else if m == 4 || m == 6 || m == 9 || m == 11 then 30
    else 31
  }

  function DaysInYear(y: int): int {
    if IsLeap(y) then 366 else 365
  }

  /** Days of year `y` before the first of month `m` (`m == 13` gives the whole year). */
  function DaysBeforeMonth(y: int, m: int): int
    requires 1 <= m <= 13
  {
    var leap := if IsLeap(y) then 1 else 0;
    match m
    case 1 => 0
    case 2 => 31
    case 3 => 59 + leap
    case 4 => 90 + leap
    case 5 => 120 + leap
    case 6 => 151 + leap
    case 7 => 181 + leap
    case 8 => 212 + leap
    case 9 => 243 + leap
    case 10 => 273 + leap
    case 11 => 304 + leap
    case 12 => 334 + leap
    case _ => 365 + leap
  }

  /** Days from 0000-01-01 to the first of January of year `y`. */
  function DaysBeforeYear(y: int): int {
    365 * y + (y + 3) / 4 - (y + 99) / 100 + (y + 399) / 400
  }

  /** Days from 0000-01-01 to 1970-01-01. */
  const EpochDays: int := 719528

  /** The day number of `c`, counted from 1970-01-01. */
  function DayNumber(c: Civil): int
    requires 1 <= c.month <= 12
  {
    DaysBeforeYear(c.year) + DaysBeforeMonth(c.year, c.month) + c.day - 1 - EpochDays
  }

  /** The day of the week of day number `n`, as `getDay` numbers it: 0 is Sunday, 1 Monday. */
  function Weekday(n: int): (w: int)
    ensures 0 <= w < 7
  {
    (n + 4) % 7
  }

  /** Weekdays repeat every seven days, and the `Date` epoch 1970-01-01 fell on a Thursday. */
  lemma WeekdayCycle(n: int)
    ensures Weekday(n + 7) == Weekday(n)
    ensures Weekday(DayNumber(Civil(1970, 1, 1))) == 4
  {
  }

  /** Stepping a year number up by one crosses a multiple of `k` exactly when `y` is one. */
  lemma CrossesMultiple(y: int, k: int)
    requires k == 4 || k == 100 || k == 400
    ensures (y + k) / k == (y + k - 1) / k + (if y % k == 0 then 1 else 0)
  {
    if k == 4 {
      Crosses(y, 4, y / 4, y % 4);
    } else if k == 100 {
      Crosses(y, 100, y / 100, y % 100);
    } else {
      Crosses(y, 400, y / 400, y % 400);
    }
  }

  lemma Crosses(y: int, k: int, q: int, r: int)
    requires k == 4 || k == 100 || k == 400
    requires y == k * q + r && 0 <= r < k
    ensures (y + k) / k == (y + k - 1) / k + (if r == 0 then 1 else 0)
  {
    assert y + k == k * (q + 1) + r;
    DivOf(y + k, k, q + 1);
    if r == 0 {
      DivOf(y + k - 1, k, q);
    } else {
      DivOf(y + k - 1, k, q + 1);
    }
  }

  /** The quotient of `a` by `k` is the `q` whose multiple of `k` lies just below `a`. */
  lemma DivOf(a: int, k: int, q: int)
    requires k == 4 || k == 100 || k == 400
    requires k * q <= a < k * q + k
    ensures a / k == q
  {
  }

  lemma YearLength(y: int)
    ensures DaysBeforeYear(y + 1) == DaysBeforeYear(y) + DaysInYear(y)
  {
    CrossesMultiple(y, 4);
    CrossesMultiple(y, 100);
    CrossesMultiple(y, 400);
    LeapChain(y);
  }

  /** A multiple of 400 is one of 100, and a multiple of 100 is one of 4. */
  lemma LeapChain(y: int)
    ensures y % 400 == 0 ==> y % 100 == 0
    ensures y % 100 == 0 ==> y % 4 == 0
  {
    if y % 400 == 0 {
      var q := y / 400;
      assert y == 400 * q;
      MultipleOf100(4 * q);
    }
    if y % 100 == 0 {
      var q := y / 100;
      assert y == 100 * q;
      MultipleOf4(25 * q);
    }
  }

  lemma MultipleOf100(q: int)
    ensures (100 * q) % 100 == 0
  {
  }

  lemma MultipleOf4(q: int)
    ensures (4 * q) % 4 == 0
  {
  }

  lemma MonthLength(y: int, m: int)
    requires 1 <= m <= 12
    ensures DaysBeforeMonth(y, m + 1) == DaysBeforeMonth(y, m) + DaysInMonth(y, m)
    ensures DaysBeforeMonth(y, 13) == DaysInYear(y)
  {
  }

  function PrevMonth(y: int, m: int): (r: (int, int))
    requires 1 <= m <= 12
    ensures 1 <= r.1 <= 12
  {
    if m == 1 then (y - 1, 12) else (y, m - 1)
  }

  function NextMonth(y: int, m: int): (r: (int, int))
    requires 1 <= m <= 12
    ensures 1 <= r.1 <= 12
  {
    if m == 12 then (y + 1, 1) else (y, m + 1)
  }

  /** The first of the month after (y, m) is DaysInMonth(y, m) days after the first of (y, m). */
  lemma NextMonthStart(y: int, m: int)
    requires 1 <= m <= 12
    ensures DayNumber(Civil(NextMonth(y, m).0, NextMonth(y, m).1, 1))
         == DayNumber(Civil(y, m, 1)) + DaysInMonth(y, m)
  {
    MonthLength(y, m);
    if m == 12 {
      YearLength(y);
    }
  }

  /**
   * The date denoted by day `n` of month (y, m), where `n` may lie outside the
   * month: `setDate(n)` rolls over into the neighbouring months as needed.
   */
  function Normalize(y: int, m: int, n: int): (c: Civil)
    requires 1 <= m <= 12
    ensures c.Valid()
    ensures DayNumber(c) == DayNumber(Civil(y, m, 1)) + n - 1
    decreases if n < 1 then 1 - n else 0, if n > 0 then n else 0
  {
    if n < 1 then
      var p := PrevMonth(y, m);
      NextMonthStart(p.0, p.1);
      Normalize(p.0, p.1, n + DaysInMonth(p.0, p.1))
    else if n > DaysInMonth(y, m) then
      var q := NextMonth(y, m);
      NextMonthStart(y, m);
      Normalize(q.0, q.1, n - DaysInMonth(y, m))
    else
      Civil(y, m, n)
  }

  /** `date.setDate(n)`: day `n` of the month `c` lies in, rolled over as needed. */
  function SetDate(c: Civil, n: int): (r: Civil)
    requires c.Valid()
    ensures r.Valid()
    ensures DayNumber(r) == DayNumber(c) + (n - c.day)
  {
    Normalize(c.year, c.month, n)
  }

  /** The year whose days contain day `x` (counted from 0000-01-01), searching from year `y`. */
  function YearOf(x: int, y: int): (r: int)
    ensures DaysBeforeYear(r) <= x < DaysBeforeYear(r + 1)
    decreases if x < DaysBeforeYear(y) then DaysBeforeYear(y) - x else 0,
              if x >= DaysBeforeYear(y + 1) then x - DaysBeforeYear(y + 1) + 1 else 0
  {
    YearLength(y);
    YearLength(y - 1);
    YearLength(y + 1);
    if x < DaysBeforeYear(y) then YearOf(x, y - 1)
    else if x >= DaysBeforeYear(y + 1) then YearOf(x, y + 1)
    else y
  }

  /** The month of year `y` containing day `k` of that year (counted from 0), searching from month `m`. */
  function MonthOf(y: int, k: int, m: int): (r: int)
    requires 1 <= m <= 12
    requires DaysBeforeMonth(y, m) <= k < DaysInYear(y)
    ensures m <= r <= 12
    ensures DaysBeforeMonth(y, r) <= k < DaysBeforeMonth(y, r + 1)
    decreases 12 - m
  {
    MonthLength(y, m);
    if m < 12 && k >= DaysBeforeMonth(y, m + 1) then MonthOf(y, k, m + 1) else m
  }

  /** The calendar date of day number `n`: the inverse of `DayNumber`. */
  function CivilOf(n: int): (c: Civil)
    ensures c.Valid()
    ensures DayNumber(c) == n
  {
    var x := n + EpochDays;
    var y := YearOf(x, 1970);
    YearLength(y);
    var k := x - DaysBeforeYear(y);
    var m := MonthOf(y, k, 1);
    MonthLength(y, m);
    Civil(y, m, k - DaysBeforeMonth(y, m) + 1)
  }
}

=== FILE: date_utils.dfy ===
/**
 * The date helpers of the web client: the week of a date, the seven day
 * names offered by the timesheet form, and the day count shown on the
 * time-off form. A client `Date` is taken as its local calendar date.
 */
module DateUtils {
  import opened Calendar
  import opened Dates
  import opened Domain

  datatype Week = Week(weekStart: Civil, weekEnd: Civil)

  /** Days from the Monday of the week of `d` to `d` (0 on a Monday, 6 on a Sunday). */
  function DaysSinceMonday(d: Civil): (k: int)
    requires d.Valid()
    ensures 0 <= k <= 6
    ensures Weekday(DayNumber(d) - k) == 1
    ensures k == 6 <==> Weekday(DayNumber(d)) == 0
  {
    var day := Weekday(DayNumber(d));
    StepBackToMonday(DayNumber(d), day, if day == 0 then 6 else day - 1);
    if day == 0 then 6 else day - 1
  }

  /** Stepping back from day `n` to the Monday of its week lands on a Monday, six days before a Sunday. */
  lemma StepBackToMonday(n: int, w: int, k: int)
    requires w == Weekday(n)
    requires k == (if w == 0 then 6 else w - 1)
    ensures Weekday(n - k) == 1
    ensures Weekday(n - k + 6) == 0
  {
  }

  /**
   * `diff` of `getWeekDates`: the day of the month, possibly outside the
   * month, that the Monday of the week of `d` has in the month of `d`.
   */
  function MondayDiff(d: Civil): int
    requires d.Valid()
  {
    var day := Weekday(DayNumber(d));
    d.day - day + (if day == 0 then -6 else 1)
  }

  /**
   * `getWeekDates` as written: `d.setDate(diff)` moves `d` to the Monday,
   * and the second `d.setDate(diff + 6)` is applied to that already moved
   * date, that is, within the month of the Monday.
   */
  function GetWeekDates(d: Civil): (w: Week)
    requires d.Valid()
    ensures w.weekStart.Valid() && w.weekEnd.Valid()
    ensures Weekday(DayNumber(w.weekStart)) == 1
    ensures DayNumber(w.weekStart) <= DayNumber(d) <= DayNumber(w.weekStart) + 6
  {
    var diff := MondayDiff(d);
    var monday := SetDate(d, diff);
    StepBackToMonday(DayNumber(d), Weekday(DayNumber(d)), DaysSinceMonday(d));
    Week(monday, SetDate(monday, diff + 6))
  }

  /** When the Monday is in the month of `d`, the week end is the following Sunday. */
  lemma GetWeekDatesEndInSameMonth(d: Civil)
    requires d.Valid()
    requires MondayDiff(d) >= 1
    ensures DayNumber(GetWeekDates(d).weekEnd) == DayNumber(GetWeekDates(d).weekStart) + 6
  {
    var diff := MondayDiff(d);
    assert SetDate(d, diff) == Civil(d.year, d.month, diff);
  }

  /**
   * When the Monday lies in the previous month, the second `setDate` counts
   * from the start of that month: the week end lands one length of the
   * previous month too early, weeks before the week start.
   */
  lemma GetWeekDatesEndInPreviousMonth(d: Civil)
    requires d.Valid()
    requires MondayDiff(d) < 1
    ensures DayNumber(GetWeekDates(d).weekEnd)
         == DayNumber(GetWeekDates(d).weekStart) + 6
            - DaysInMonth(PrevMonth(d.year, d.month).0, PrevMonth(d.year, d.month).1)
    ensures DayNumber(GetWeekDates(d).weekEnd) < DayNumber(GetWeekDates(d).weekStart)
  {
    var diff := MondayDiff(d);
    assert diff == d.day - DaysSinceMonday(d);
    var p := PrevMonth(d.year, d.month);
    var len := DaysInMonth(p.0, p.1);
    var monday := SetDate(d, diff);
    assert monday == Normalize(p.0, p.1, diff + len);
    assert monday == Civil(p.0, p.1, diff + len);
    var sunday := SetDate(monday, diff + 6);
    assert DayNumber(sunday) == DayNumber(monday) + (diff + 6 - (diff + len));
  }

  /** Friday 2024-03-01: the week starts on Monday 2024-02-26 but "ends" on 2024-02-03. */
  lemma GetWeekDatesLeapFebruary()
    ensures GetWeekDates(Civil(2024, 3, 1)) == Week(Civil(2024, 2, 26), Civil(2024, 2, 3))
  {
    var d := Civil(2024, 3, 1);
    assert Weekday(DayNumber(d)) == 5;
    assert SetDate(d, -3) == Civil(2024, 2, 26);
  }

  /** The week of `d` with the end computed from the Monday by six whole days. */
  function WeekOf(d: Civil): (w: Week)
    requires d.Valid()
    ensures w.weekStart.Valid() && w.weekEnd.Valid()
    ensures Weekday(DayNumber(w.weekStart)) == 1 && Weekday(DayNumber(w.weekEnd)) == 0
    ensures DayNumber(w.weekStart) <= DayNumber(d) <= DayNumber(w.weekEnd)
    ensures DayNumber(w.weekEnd) == DayNumber(w.weekStart) + 6
  {
    var diff := MondayDiff(d);
    StepBackToMonday(DayNumber(d), Weekday(DayNumber(d)), DaysSinceMonday(d));
    Week(SetDate(d, diff), SetDate(d, diff + 6))
  }

  /** The week start of `WeekOf` is the one `getWeekDates` computes. */
  lemma WeekOfAgreesOnStart(d: Civil)
    requires d.Valid()
    ensures WeekOf(d).weekStart == GetWeekDates(d).weekStart
  {
  }

  /** `getDaysOfWeek`: the seven names, Monday first, each a value of the entry day enum. */
  function GetDaysOfWeek(): (names: seq<string>)
    ensures |names| == 7
    ensures forall i :: 0 <= i < 7 ==>
      DayFromName(names[i]).Some? && DayFromName(names[i]).value.Index() == i
  {
    ["Monday", "Tuesday", "Wednesday", "Thursday", "Friday", "Saturday", "Sunday"]
  }

  /**
   * `calculateDaysBetween`: the inclusive day count between two instants in
   * either order; it is 1 exactly for equal instants and agrees with the
   * `daysRequested` of the time-off schema when the dates are in order.
   */
  function CalculateDaysBetween(fromDate: Millis, toDate: Millis): (days: int)
    ensures days >= 1
    ensures days == 1 <==> fromDate == toDate
    ensures fromDate <= toDate ==> days == DaysRequested(fromDate, toDate)
  {
    var diff := if toDate >= fromDate then toDate - fromDate else fromDate - toDate;
    CeilDiv(diff, DayMs) + 1
  }

  /** The order of the two dates does not matter. */
  lemma CalculateDaysBetweenSymmetric(a: Millis, b: Millis)
    ensures CalculateDaysBetween(a, b) == CalculateDaysBetween(b, a)
  {
  }
}

=== FILE: dates.dfy ===
/**
 * Instants as the back end stores them (integer milliseconds since the
 * epoch) and the date arithmetic of the timesheet controller and of the
 * time-off schema.
 */
module Dates {
  import opened Calendar

  type Millis = int

  /** `1000 * 3600 * 24`: the length of a day in milliseconds. */
  const DayMs: int := 86_400_000

  /** `Math.ceil(a / d)` for a positive divisor: the least `q` with `a <= q * d`. */
  function CeilDiv(a: int, d: int): (q: int)
    requires d > 0
    ensures (q - 1) * d < a <= q * d
  {
    -((-a) / d)
  }

  /** `Math.ceil(a / d)` for any non-zero divisor. */
  function JsCeilDiv(a: int, d: int): (q: int)
    requires d != 0
    ensures d > 0 ==> (q - 1) * d < a <= q * d
    ensures d < 0 ==> q * d <= a < (q - 1) * d
  {
    if d > 0 then CeilDiv(a, d) else CeilDiv(-a, -d)
  }

  /** The local calendar date of instant `t`. */
  function DateOf(t: Millis): (c: Civil)
    ensures c.Valid()
  {
    CivilOf(t / DayMs)
  }

  /** The instant at time of day `tod` on date `c`. */
  function At(c: Civil, tod: int): Millis
    requires 1 <= c.month <= 12
  {
    DayNumber(c) * DayMs + tod
  }

  /**
   * `getWeekDates` of the timesheet controller: the start is kept exactly as
   * given (it is not moved to a Monday) and the end is a copy of it moved by
   * `setDate(getDate() + 6)`, which is six whole days later.
   */
  function WeekDates(weekStart: Millis): (r: (Millis, Millis))
    ensures r.0 == weekStart
    ensures r.1 == weekStart + 6 * DayMs
  {
    var c := DateOf(weekStart);
    var end := SetDate(c, c.day + 6);
    assert DayNumber(end) == weekStart / DayMs + 6;
    (weekStart, At(end, weekStart % DayMs))
  }

  /**
   * The pre-save hook of the time-off schema: the number of days from
   * `fromDate` to `toDate`, both counted, rounding a part day up.
   */
  function DaysRequested(fromDate: Millis, toDate: Millis): (days: int)
    ensures (days - 2) * DayMs < toDate - fromDate <= (days - 1) * DayMs
    ensures fromDate <= toDate ==> days >= 1
  {
    CeilDiv(toDate - fromDate, DayMs) + 1
  }

  /** A request from one midnight to the midnight `k` days later covers `k + 1` days. */
  lemma DaysRequestedWholeDays(fromDate: Millis, k: nat)
    ensures DaysRequested(fromDate, fromDate + k * DayMs) == k + 1
  {
    var d := DaysRequested(fromDate, fromDate + k * DayMs);
    assert (d - 2) * DayMs < k * DayMs <= (d - 1) * DayMs;
  }
}

=== FILE: domain.dfy ===
/**
 * Identifiers, principals, week days and the error vocabulary shared by the
 * timesheet and time-off workflows.
 */
module Domain {
  import opened Wrappers

  /** A document or user identifier (a Mongo ObjectId in its string form). */
  type Id = string

  datatype Role = Employee | Manager

  /** The role as stored on a user and named in `authorize(...)`. */
  function RoleName(r: Role): string {
    match r
    case Employee => "employee"
    case Manager => "manager"
  }

  /** The authenticated actor of a request: the user the session resolves to. */
  datatype User = User(id: Id, role: Role, active: bool)

  /** The day of a timesheet entry, as the entry schema enumerates it. */
  datatype Day = Monday | Tuesday | Wednesday | Thursday | Friday | Saturday | Sunday {
    /** Position in the week, Monday first. */
    function Index(): nat {
      match this
      case Monday => 0
      case Tuesday => 1
      case Wednesday => 2
      case Thursday => 3
      case Friday => 4
      case Saturday => 5
      case Sunday => 6
    }
  }

  function DayName(d: Day): string {
    match d
    case Monday => "Monday"
    case Tuesday => "Tuesday"
    case Wednesday => "Wednesday"
    case Thursday => "Thursday"
    case Friday => "Friday"
    case Saturday => "Saturday"
    case Sunday => "Sunday"
  }

  /** Casting a string to the day enum: defined exactly on the seven day names. */
  function DayFromName(s: string): (r: Option<Day>)
    ensures r.Some? ==> DayName(r.value) == s
    ensures r.None? ==> forall d: Day :: DayName(d) != s
  {
    if s == "Monday" then Some(Monday)
    else if s == "Tuesday" then Some(Tuesday)
    else if s == "Wednesday" then Some(Wednesday)
    else if s == "Thursday" then Some(Thursday)
    else if s == "Friday" then Some(Friday)
    else if s == "Saturday" then Some(Saturday)
    else if s == "Sunday" then Some(Sunday)
    else None
  }

  /** A rule of the request validators; each names the field it checks and the message it reports. */
  datatype Rule =
    | FirstNameRequired | LastNameRequired | ValidEmail | PasswordLength | EmployeeIdRequired | ValidRole
    | PasswordRequired
    | ValidWeekStart | AtLeastOneEntry | ValidDay | HoursInRange | ProjectRequired | DescriptionLength
    | ValidFromDate | ValidToDate | ReasonRequired | ReasonLength
    | ValidAction | RejectionReasonLength
  {
    /** The body field the rule checks (inside each element of `entries` for the entry rules). */
    function Field(): string {
      match this
      case FirstNameRequired => "firstName"
      case LastNameRequired => "lastName"
      case ValidEmail => "email"
      case PasswordLength => "password"
      case EmployeeIdRequired => "employeeId"
      case ValidRole => "role"
      case PasswordRequired => "password"
      case ValidWeekStart => "weekStartDate"
      case AtLeastOneEntry => "entries"
      case ValidDay => "day"
      case HoursInRange => "hours"
      case ProjectRequired => "project"
      case DescriptionLength => "description"
      case ValidFromDate => "fromDate"
      case ValidToDate => "toDate"
      case ReasonRequired => "reason"
      case ReasonLength => "reason"
      case ValidAction => "action"
      case RejectionReasonLength => "rejectionReason"
    }

    function Message(): string {
      match this
      case FirstNameRequired => "First name is required"
      case LastNameRequired => "Last name is required"
      case ValidEmail => "Please provide a valid email"
      case PasswordLength => "Password must be at least 6 characters long"
      case EmployeeIdRequired => "Employee ID is required"
      case ValidRole => "Role must be either employee or manager"
      case PasswordRequired => "Password is required"
      case ValidWeekStart => "Please provide a valid week start date"
      case AtLeastOneEntry => "At least one entry is required"
      case ValidDay => "Invalid day"
      case HoursInRange => "Hours must be between 0 and 24"
      case ProjectRequired => "Project/Task name is required"
      case DescriptionLength => "Description cannot exceed 500 characters"
      case ValidFromDate => "Please provide a valid from date"
      case ValidToDate => "Please provide a valid to date"
      case ReasonRequired => "Reason is required"
      case ReasonLength => "Reason cannot exceed 1000 characters"
      case ValidAction => "Action must be either approve or reject"
      case RejectionReasonLength => "Rejection reason cannot exceed 500 characters"
    }
  }

  /** One failed rule: on a top-level body field, or on the field of one element of `entries`. */
  datatype Violation = BodyViolation(rule: Rule) | EntryViolation(index: nat, rule: Rule)

  /** Every way a request can end without success, with its HTTP status and message. */
  datatype ApiError =
    | ValidationFailed(violations: seq<Violation>)
    | LoginRequired
    | InvalidSession
    | InsufficientPermissions
    | AccessDenied
    | TimesheetNotFound
    | OnlyDraftSubmittable
    | EmptyTimesheet
    | OnlySubmittedReviewable
    | InvalidAction
    | TimeOffNotFound
    | OnlyPendingReviewable
    | PeriodConflict
    | ServerError
    | NoSuchRoute
  {
    function Status(): nat {
      match this
      case ValidationFailed(_) => 400
      case LoginRequired => 401
      case InvalidSession => 401
      case InsufficientPermissions => 403
      case AccessDenied => 403
      case TimesheetNotFound => 404
      case OnlyDraftSubmittable => 400
      case EmptyTimesheet => 400
      case OnlySubmittedReviewable => 400
      case InvalidAction => 400
      case TimeOffNotFound => 404
      case OnlyPendingReviewable => 400
      case PeriodConflict => 400
      case ServerError => 500
      case NoSuchRoute => 404
    }

    function Message(): string {
      match this
      case ValidationFailed(_) => ""
      case LoginRequired => "Access denied. Please login."
      case InvalidSession => "Invalid session or user not active."
      case InsufficientPermissions => "Access denied. Insufficient permissions."
      case AccessDenied => "Access denied"
      case TimesheetNotFound => "Timesheet not found"
      case OnlyDraftSubmittable => "Only draft timesheets can be submitted"
      case EmptyTimesheet => "Cannot submit empty timesheet"
      case OnlySubmittedReviewable => "Only submitted timesheets can be reviewed"
      case InvalidAction => "Invalid action"
      case TimeOffNotFound => "Time off request not found"
      case OnlyPendingReviewable => "Only pending requests can be reviewed"
      case PeriodConflict => "You already have a time off request for this period"
      case ServerError => "Server error"
      case NoSuchRoute => ""
    }
  }

  // ---- review success messages ----

  /** The success message of a review as both review handlers build it: the action with "d" appended. */
  function ReviewedMessageAsWritten(noun: string, action: string): string {
    noun + " " + action + "d successfully"
  }

  /** The past tense of a regular English verb: "d" after a final "e", "ed" after anything else. */
  function PastTense(verb: string): (r: string)
    ensures |r| >= 2 && r[|r| - 2..] == "ed"
    ensures r == verb + "d" || r == verb + "ed"
  {
    if verb != [] && verb[|verb| - 1] == 'e' then
      var r := verb + "d";
      assert r[|r| - 2..] == [verb[|verb| - 1], 'd'];
      r
    else
      verb + "ed"
  }

  /** The success message the review handlers evidently intend: the action in the past tense. */
  function ReviewedMessage(noun: string, action: string): (m: string)
    ensures m == noun + " " + PastTense(action) + " successfully"
    ensures action == "approve" ==> m == ReviewedMessageAsWritten(noun, action)
  {
    noun + " " + PastTense(action) + " successfully"
  }

  lemma PastTenseOfActions()
    ensures PastTense("approve") == "approved"
    ensures PastTense("reject") == "rejected"
  {
    assert "approve"[6] == 'e' && "reject"[5] != 'e';
  }

  /** The two agree on "approve" but not on "reject", which the handlers report as "rejectd". */
  lemma ReviewedMessageMisspellsReject()
    ensures ReviewedMessageAsWritten("Timesheet", "reject") == "Timesheet rejectd successfully"
    ensures ReviewedMessage("Timesheet", "reject") == "Timesheet rejected successfully"
  {
    PastTenseOfActions();
  }
}

=== FILE: listing.dfy ===
/**
 * The list endpoints' query pipeline: select the matching documents of a
 * collection, sort them by one key, skip `(page - 1) * limit` and keep
 * `limit`, and report `totalPages = Math.ceil(total / limit)`. A collection
 * is read in its natural order, given as a sequence of its keys; documents
 * whose keys tie may come back in any order, as with the database's sort.
 */
module Listing {
  import opened Wrappers
  import opened Domain
  import opened Dates

  predicate Distinct(s: seq<Id>) {
    forall i, j :: 0 <= i < j < |s| ==> s[i] != s[j]
  }

  /** `order` lists every key of `m` exactly once. */
  predicate Enumerates<T>(order: seq<Id>, m: map<Id, T>) {
    Distinct(order) && (forall id :: id in order ==> id in m) && forall id :: id in m ==> id in order
  }

  /** Some natural order of the keys of `m`. */
  method NaturalOrder<T>(m: map<Id, T>) returns (order: seq<Id>)
    ensures Enumerates(order, m)
  {
    order := [];
    var rest := m.Keys;
    while rest != {}
      invariant rest <= m.Keys
      invariant Distinct(order)
      invariant forall id :: id in order <==> id in m && id !in rest
      invariant forall id :: id in m ==> id in order || id in rest
      decreases |rest|
    {
      var k :| k in rest;
      order := order + [k];
      rest := rest - {k};
    }
  }

  /** The elements of `s` that `keep` selects. */
  function Filter(s: seq<Id>, keep: Id -> bool): (r: seq<Id>)
    ensures forall id :: id in r <==> id in s && keep(id)
    ensures Distinct(s) ==> Distinct(r)
    ensures |r| <= |s|
    decreases |s|
  {
    if s == [] then []
    else (if keep(s[0]) then [s[0]] else []) + Filter(s[1..], keep)
  }

  /** A sequence without repetitions has as many elements as its set. */
  lemma {:induction false} DistinctCard(s: seq<Id>)
    requires Distinct(s)
    ensures |set id | id in s| == |s|
    decreases |s|
  {
    if s != [] {
      DistinctCard(s[1..]);
      assert (set id | id in s) == {s[0]} + (set id | id in s[1..]);
      assert s[0] !in (set id | id in s[1..]);
    }
  }

  // ---- sorting ----

  /** Ascending order of an optional key: a missing key sorts before every present one. */
  predicate KeyLe(a: Option<int>, b: Option<int>) {
    a.None? || (b.Some? && a.value <= b.value)
  }

  /** `a` may precede `b` in the requested direction (`desc` for `-1`, otherwise `1`). */
  predicate InOrder(a: Option<int>, b: Option<int>, desc: bool) {
    if desc then KeyLe(b, a) else KeyLe(a, b)
  }

  predicate SortedBy(s: seq<Id>, key: Id -> Option<int>, desc: bool) {
    forall i, j :: 0 <= i < j < |s| ==> InOrder(key(s[i]), key(s[j]), desc)
  }

  /** `s` with `x` placed before the first element it may precede. */
  function Insert(x: Id, s: seq<Id>, key: Id -> Option<int>, desc: bool): (r: seq<Id>)
    ensures multiset(r) == multiset(s) + multiset{x}
    ensures forall y :: y in r ==> y == x || y in s
    decreases |s|
  {
    if s == [] then [x]
    else if InOrder(key(x), key(s[0]), desc) then [x] + s
    else
      assert s == [s[0]] + s[1..];
      [s[0]] + Insert(x, s[1..], key, desc)
  }

  /** Either of two keys may precede the other. */
  lemma InOrderTotal(a: Option<int>, b: Option<int>, desc: bool)
    ensures !InOrder(a, b, desc) ==> InOrder(b, a, desc)
  {
  }

  /** Inserting into a sorted sequence keeps it sorted. */
  lemma {:induction false} InsertSorted(x: Id, s: seq<Id>, key: Id -> Option<int>, desc: bool)
    requires SortedBy(s, key, desc)
    ensures SortedBy(Insert(x, s, key, desc), key, desc)
    decreases |s|
  {
    if s != [] && !InOrder(key(x), key(s[0]), desc) {
      var rest := Insert(x, s[1..], key, desc);
      InsertSorted(x, s[1..], key, desc);
      InOrderTotal(key(x), key(s[0]), desc);
      forall y | y in rest ensures InOrder(key(s[0]), key(y), desc) {
        if y != x {
          var k :| 0 <= k < |s[1..]| && s[1..][k] == y;
          assert s[1 + k] == y;
        }
      }
      var r := [s[0]] + rest;
      forall i, j | 0 <= i < j < |r| ensures InOrder(key(r[i]), key(r[j]), desc) {
        if i == 0 {
          assert r[j] == rest[j - 1] && r[j] in rest;
        } else {
          assert r[i] == rest[i - 1] && r[j] == rest[j - 1];
        }
      }
    }
  }

  /** The elements of `s` rearranged so that their keys are in order. */
  function Sort(s: seq<Id>, key: Id -> Option<int>, desc: bool): (r: seq<Id>)
    ensures multiset(r) == multiset(s)
    ensures SortedBy(r, key, desc)
    decreases |s|
  {
    if s == [] then []
    else
      assert s == [s[0]] + s[1..];
      InsertSorted(s[0], Sort(s[1..], key, desc), key, desc);
      Insert(s[0], Sort(s[1..], key, desc), key, desc)
  }

  /** A rearrangement keeps the elements and their absence of repetitions. */
  lemma PermutationKeeps(s: seq<Id>, r: seq<Id>)
    requires multiset(r) == multiset(s)
    ensures forall id :: id in r <==> id in s
    ensures |r| == |s|
    ensures Distinct(s) ==> Distinct(r)
  {
    assert forall id :: id in r <==> id in multiset(r);
    assert |r| == |multiset(r)|;
    if Distinct(s) && !Distinct(r) {
      var i, j :| 0 <= i < j < |r| && r[i] == r[j];
      assert multiset(r)[r[i]] >= 2 by {
        assert r == r[..i] + [r[i]] + r[i + 1..j] + [r[j]] + r[j + 1..];
      }
      DistinctOnce(s, r[i]);
      assert false;
    }
  }

  lemma {:induction false} DistinctOnce(s: seq<Id>, x: Id)
    requires Distinct(s)
    ensures multiset(s)[x] <= 1
    decreases |s|
  {
    if s != [] {
      assert s == [s[0]] + s[1..];
      DistinctOnce(s[1..], x);
      if x == s[0] {
        assert x !in s[1..];
      }
    }
  }

  // ---- pagination ----

  /** The `page`, `limit` and `status` query parameters; absent ones default to 1, 10 and no filter. */
  datatype PageQuery = PageQuery(page: Option<int>, limit: Option<int>, status: Option<string>) {
    function Page(): int { page.GetOr(1) }
    function Limit(): int { limit.GetOr(10) }
    /** `if (status)`: only a non-empty status string filters. */
    function StatusFilter(): Option<string> {
      if status.Some? && status.value != "" then status else None
    }
  }

  /** A list response: the page's items, `totalPages` (None when JSON would carry null), `currentPage`, `total`. */
  datatype Page = Page(items: seq<Id>, totalPages: Option<int>, currentPage: int, total: nat)

  /**
   * `.skip((page - 1) * limit).limit(limit)`: a negative skip is refused by the
   * database; a limit of 0 means no limit and a negative one its absolute value.
   */
  function Window(all: seq<Id>, page: int, limit: int): (r: Result<seq<Id>, ApiError>)
    ensures r.Err? <==> (page - 1) * limit < 0
    ensures r.Err? ==> r.error == ServerError
    ensures r.Ok? && r.value != [] ==> (page - 1) * limit + |r.value| <= |all|
    ensures r.Ok? ==> forall k :: 0 <= k < |r.value| ==> r.value[k] == all[(page - 1) * limit + k]
    ensures r.Ok? && limit != 0 ==> |r.value| <= if limit > 0 then limit else -limit
    ensures r.Ok? && (page - 1) * limit + |r.value| < |all| ==> limit != 0 && |r.value| == (if limit > 0 then limit else -limit)
  {
    var skip := (page - 1) * limit;
    if skip < 0 then Err(ServerError)
    else
      var rest := if skip <= |all| then all[skip..] else [];
      var take := if limit == 0 then |rest| else if limit > 0 then limit else -limit;
      Ok(if take < |rest| then rest[..take] else rest)
  }

  /** `Math.ceil(total / limit)`; dividing by 0 gives a non-finite number, which JSON renders as null. */
  function TotalPages(total: nat, limit: int): (r: Option<int>)
    ensures r.None? <==> limit == 0
    ensures limit > 0 ==> (r.value - 1) * limit < total <= r.value * limit
    ensures limit < 0 ==> r.value * limit <= total < (r.value - 1) * limit
  {
    if limit == 0 then None else Some(JsCeilDiv(total, limit))
  }

  /** With a positive limit, item `k` is found on page `k / limit + 1`, at position `k % limit`, and that page exists. */
  lemma EveryItemOnItsPage(all: seq<Id>, limit: int, k: int)
    requires limit > 0 && 0 <= k < |all|
    ensures Window(all, k / limit + 1, limit).Ok?
    ensures k % limit < |Window(all, k / limit + 1, limit).value|
    ensures Window(all, k / limit + 1, limit).value[k % limit] == all[k]
    ensures k / limit + 1 <= TotalPages(|all|, limit).value
  {
    var p := k / limit + 1;
    var skip := (p - 1) * limit;
    assert skip + k % limit == k;
    var w := Window(all, p, limit);
    assert w.Ok?;
    var n := TotalPages(|all|, limit).value;
    assert skip < n * limit;
    MulLess(p - 1, n, limit);
  }

  lemma MulLess(a: int, b: int, c: int)
    requires c > 0 && a * c < b * c
    ensures a < b
  {
  }

  /** With a positive limit, the pages after the last one are empty. */
  lemma PastLastPageEmpty(all: seq<Id>, limit: int, page: int)
    requires limit > 0
    requires page > TotalPages(|all|, limit).value
    ensures Window(all, page, limit) == Ok([])
  {
    var n := TotalPages(|all|, limit).value;
    assert (page - 1) * limit >= n * limit;
  }

  /** A window of a sorted sequence without repetitions is sorted and without repetitions. */
  lemma WindowKeeps(all: seq<Id>, page: int, limit: int, key: Id -> Option<int>, desc: bool)
    requires Window(all, page, limit).Ok?
    ensures var w := Window(all, page, limit).value;
      (forall id :: id in w ==> id in all) &&
      (Distinct(all) ==> Distinct(w)) &&
      (SortedBy(all, key, desc) ==> SortedBy(w, key, desc))
  {
    var skip := (page - 1) * limit;
    var w := Window(all, page, limit).value;
    if w != [] {
      assert 0 <= skip && skip + |w| <= |all|;
      assert forall k :: 0 <= k < |w| ==> w[k] == all[skip + k];
      OffsetKeeps(all, w, skip, key, desc);
    }
  }

  /** A run of consecutive items of `all`, starting at `skip`, keeps membership, distinctness and order. */
  lemma OffsetKeeps(all: seq<Id>, w: seq<Id>, skip: int, key: Id -> Option<int>, desc: bool)
    requires 0 <= skip && skip + |w| <= |all|
    requires forall k :: 0 <= k < |w| ==> w[k] == all[skip + k]
    ensures forall id :: id in w ==> id in all
    ensures Distinct(all) ==> Distinct(w)
    ensures SortedBy(all, key, desc) ==> SortedBy(w, key, desc)
  {
    forall id | id in w ensures id in all {
      var k :| 0 <= k < |w| && w[k] == id;
      assert w[k] == all[skip + k];
    }
    forall i, j | 0 <= i < j < |w| ensures w[i] == all[skip + i] && w[j] == all[skip + j] {
    }
  }

  /** The selected documents, sorted: a rearrangement of the selection, counted by its set. */
  lemma SelectionFacts(order: seq<Id>, keep: Id -> bool, key: Id -> Option<int>, desc: bool)
    requires Distinct(order)
    ensures var sorted := Sort(Filter(order, keep), key, desc);
      Distinct(sorted) && (forall id :: id in sorted <==> id in order && keep(id)) &&
      |sorted| == |set id | id in order && keep(id)|
  {
    var matching := Filter(order, keep);
    var sorted := Sort(matching, key, desc);
    PermutationKeeps(matching, sorted);
    DistinctCard(matching);
    assert (set id | id in matching) == (set id | id in order && keep(id));
  }

  /**
   * `s` lists every document of `m` that `keep` selects, each once, in key
   * order: one of the results the sorted query may give (documents whose
   * keys tie may come in any order).
   */
  predicate Arrangement<T>(s: seq<Id>, m: map<Id, T>, keep: Id -> bool, key: Id -> Option<int>, desc: bool) {
    && Distinct(s) && SortedBy(s, key, desc)
    && (forall id :: id in s ==> id in m && keep(id))
    && (forall id :: id in m && keep(id) ==> id in s)
  }

  /**
   * One page of the documents of `m` that `keep` selects, sorted by `key`:
   * the page fails exactly when the skip is negative; otherwise it is the
   * `skip((page - 1) * limit).limit(limit)` window of an arrangement of the
   * selected documents, and `total` counts every selected document.
   */
  function ListPage<T>(m: map<Id, T>, order: seq<Id>, keep: Id -> bool, key: Id -> Option<int>, desc: bool, q: PageQuery)
    : (r: Result<Page, ApiError>)
    requires Enumerates(order, m)
    ensures r.Err? <==> (q.Page() - 1) * q.Limit() < 0
    ensures r.Err? ==> r.error == ServerError
    ensures r.Ok? ==> forall i :: 0 <= i < |r.value.items| ==> r.value.items[i] in m && keep(r.value.items[i])
    ensures r.Ok? ==> Distinct(r.value.items)
    ensures r.Ok? ==> forall i, j :: 0 <= i < j < |r.value.items| ==> InOrder(key(r.value.items[i]), key(r.value.items[j]), desc)
    ensures r.Ok? ==> r.value.total == |set id | id in m && keep(id)|
    ensures r.Ok? ==> r.value.totalPages == TotalPages(r.value.total, q.Limit())
    ensures r.Ok? ==> r.value.currentPage == q.Page()
    ensures r.Ok? ==> exists s :: Arrangement(s, m, keep, key, desc) && |s| == r.value.total && Window(s, q.Page(), q.Limit()) == Ok(r.value.items)
  {
    var sorted := Sort(Filter(order, keep), key, desc);
    SortedSelectionArranges(m, order, keep, key, desc);
    match Window(sorted, q.Page(), q.Limit())
    case Err(e) => Err(e)
    case Ok(items) =>
      WindowKeeps(sorted, q.Page(), q.Limit(), key, desc);
      assert forall i :: 0 <= i < |items| ==> items[i] in sorted;
      Ok(Page(items, TotalPages(|sorted|, q.Limit()), q.Page(), |sorted|))
  }

  /** Sorting the selection of a natural order arranges every selected document of `m`, and counts them. */
  lemma SortedSelectionArranges<T>(m: map<Id, T>, order: seq<Id>, keep: Id -> bool, key: Id -> Option<int>, desc: bool)
    requires Enumerates(order, m)
    ensures var sorted := Sort(Filter(order, keep), key, desc);
      Arrangement(sorted, m, keep, key, desc) && |sorted| == |set id | id in m && keep(id)|
  {
    SelectionFacts(order, keep, key, desc);
    assert (set id | id in order && keep(id)) == (set id | id in m && keep(id));
  }
}

=== FILE: payloads.dfy ===
/**
 * Request bodies as the validators and controllers see them. A field that
 * is absent from the JSON body reads as the empty string where the
 * validators coerce it to one; date fields are represented by the outcome
 * of ISO-8601 parsing, and number fields by the number they denote.
 */
module Payloads {
  import opened Wrappers
  import opened Dates

  /** An ISO-8601 date field: the instant it denotes, or None when absent or not ISO-8601. */
  type DateField = Option<Millis>

  /** One element of `entries`; `hours` is None when absent or not numeric. */
  datatype EntryPayload = EntryPayload(day: string, hours: Option<real>, project: string, description: Option<string>)

  /** Body of `POST /timesheets`; `entries` is None when it is not an array. */
  datatype TimesheetPayload = TimesheetPayload(weekStartDate: DateField, entries: Option<seq<EntryPayload>>)

  /** Body of `POST /timeoff`. */
  datatype TimeOffPayload = TimeOffPayload(fromDate: DateField, toDate: DateField, reason: string)

  /** Body of the two review routes. */
  datatype ReviewPayload = ReviewPayload(action: string, rejectionReason: Option<string>)

  /** Body of the registration route. */
  datatype RegisterPayload = RegisterPayload(
    firstName: string, lastName: string, email: string, password: string,
    employeeId: string, role: Option<string>)

  /** Body of the login route. */
  datatype LoginPayload = LoginPayload(email: string, password: string)
}

=== FILE: routes.dfy ===
/**
 * The two routers of `routes/timesheets.js` and `routes/timeOff.js`: which
 * path and method reach which handler, and the middleware chain run in
 * front of it (`auth`, then `authorize('manager')` where required, then the
 * body validator where required). `Handle` runs a request through the
 * matching chain and handler against the whole database.
 */
module Routes {
  import opened Wrappers
  import opened Domain
  import opened Dates
  import opened Payloads
  import opened Validation
  import opened Auth
  import opened Listing
  import TimesheetSchema
  import TimeOffSchema
  import TC = TimesheetController
  import TO = TimeOffController

  datatype Verb = Get | Post

  /** `/api/timesheets` or `/api/timeoff`. */
  datatype Router = TimesheetRouter | TimeOffRouter

  datatype Endpoint =
    | CreateDoc          // POST /
    | ListMine           // GET /my
    | ListPending        // GET /pending
    | Fetch(id: Id)      // GET /:id
    | SubmitDoc(id: Id)  // POST /:id/submit, timesheets only
    | ReviewDoc(id: Id)  // POST /:id/review

  /**
   * Express tries the routes in the order they are registered, so `/my`
   * and `/pending` are taken before `/:id` can read them as ids. `path` is
   * the list of segments after the router's mount point.
   */
  function Route(router: Router, verb: Verb, path: seq<string>): (e: Option<Endpoint>)
    ensures e.Some? && (e.value.Fetch? || e.value.SubmitDoc? || e.value.ReviewDoc?) ==>
      |path| >= 1 && e.value.id == path[0] && path[0] != ""
    ensures e.Some? && e.value.SubmitDoc? ==> router == TimesheetRouter
  {
    if verb == Post && path == [] then Some(CreateDoc)
    else if verb == Get && path == ["my"] then Some(ListMine)
    else if verb == Get && path == ["pending"] then Some(ListPending)
    else if verb == Get && |path| == 1 && path[0] != "" then Some(Fetch(path[0]))
    else if router == TimesheetRouter && verb == Post && |path| == 2 && path[0] != "" && path[1] == "submit" then
      Some(SubmitDoc(path[0]))
    else if verb == Post && |path| == 2 && path[0] != "" && path[1] == "review" then Some(ReviewDoc(path[0]))
    else None
  }

  /** One middleware in front of a handler. */
  datatype Guard = RequireLogin | RequireRole(roles: seq<Role>) | ValidateBody

  /** The middleware chain of each endpoint; the two routers register the same chains. */
  function Chain(e: Endpoint): seq<Guard> {
    match e
    case CreateDoc => [RequireLogin, ValidateBody]
    case ListMine => [RequireLogin]
    case ListPending => [RequireLogin, RequireRole([Manager])]
    case Fetch(_) => [RequireLogin]
    case SubmitDoc(_) => [RequireLogin]
    case ReviewDoc(_) => [RequireLogin, RequireRole([Manager]), ValidateBody]
  }

  /** The JSON body, read through the field names of whichever handler receives it. */
  datatype Body = Body(sheet: TimesheetPayload, timeOff: TimeOffPayload, review: ReviewPayload)

  datatype Request = Request(verb: Verb, path: seq<string>, session: Option<Session>, query: PageQuery, body: Body)

  /** The database: accounts, timesheets and time-off requests. */
  datatype World = World(accounts: Accounts, sheets: TC.Store, requests: TO.Store)

  /**
   * What the request cannot know: the time, the id the database gives an
   * inserted document, and the natural order of each collection.
   */
  datatype Env = Env(now: Millis, freshId: Id, sheetOrder: seq<Id>, requestOrder: seq<Id>)

  predicate Ready(w: World, env: Env) {
    && TC.UniqueWeeks(w.sheets)
    && env.freshId !in w.sheets && env.freshId !in w.requests
    && Enumerates(env.sheetOrder, w.sheets) && Enumerates(env.requestOrder, w.requests)
  }

  /** A successful answer: a written document (status 200 or 201), a page, or one document. */
  datatype Reply =
    | Written(id: Id, status: nat, message: string)
    | Listed(page: Page)
    | FoundSheet(sheet: TimesheetSchema.Timesheet)
    | FoundRequest(request: TimeOffSchema.TimeOffRequest)

  datatype Response = Response(world: World, outcome: Result<Reply, ApiError>, destroySession: bool)

  /** The outcome of the guards: the signed-in user, or the error that ends the request. */
  datatype Admission = Admitted(user: User) | Refused(error: ApiError, destroySession: bool)

  /**
   * The guards in order: `auth` and `authorize` may end the request, the
   * validator only records (the handler reads its result). A handler or an
   * `authorize` reached with no signed-in user would fail reading it.
   */
  function Admit(gs: seq<Guard>, session: Option<Session>, accounts: Accounts, user: Option<User>): (a: Admission)
    ensures a.Refused? ==> a.error.Status() == 401 || a.error == InsufficientPermissions || a.error == ServerError
    ensures a.Refused? && a.destroySession ==> a.error == InvalidSession
    decreases |gs|
  {
    if gs == [] then
      (match user
       case Some(u) => Admitted(u)
       case None => Refused(ServerError, false))
    else
      match gs[0]
      case RequireLogin =>
        (match Authenticate(session, accounts)
         case Deny(e, d) => Refused(e, d)
         case Proceed(u) => Admit(gs[1..], session, accounts, Some(u)))
      case RequireRole(roles) =>
        if user.None? then Refused(ServerError, false)
        else if Authorize(roles, user.value).Some? then Refused(InsufficientPermissions, false)
        else Admit(gs[1..], session, accounts, user)
      case ValidateBody => Admit(gs[1..], session, accounts, user)
  }

  /** What the chain of every endpoint admits: an active account, and a manager where the chain demands one. */
  lemma AdmitChain(e: Endpoint, session: Option<Session>, accounts: Accounts)
    ensures var a := Admit(Chain(e), session, accounts, None);
      var g := Authenticate(session, accounts);
      && (g.Deny? ==> a == Refused(g.error, g.destroySession))
      && (g.Proceed? && RequireRole([Manager]) in Chain(e) && g.user.role != Manager ==> a == Refused(InsufficientPermissions, false))
      && (g.Proceed? && (RequireRole([Manager]) !in Chain(e) || g.user.role == Manager) ==> a == Admitted(g.user))
  {
    var g := Authenticate(session, accounts);
    if g.Proceed? {
      var u := Some(g.user);
      match e
      case CreateDoc =>
        assert Chain(e)[1..] == [ValidateBody] && [ValidateBody][1..] == [];
      case ListMine =>
      case ListPending =>
        assert Chain(e)[1..] == [RequireRole([Manager])] && [RequireRole([Manager])][1..] == [];
      case Fetch(_) =>
      case SubmitDoc(_) =>
      case ReviewDoc(_) =>
        assert Chain(e)[1..] == [RequireRole([Manager]), ValidateBody];
        assert [RequireRole([Manager]), ValidateBody][1..] == [ValidateBody] && [ValidateBody][1..] == [];
    }
  }

  /** The errors and the (sanitized) body the validator of the chain hands on, or none when there is no validator. */
  function Validated(router: Router, e: Endpoint, b: Body): (r: (seq<Violation>, Body))
    ensures ValidateBody !in Chain(e) ==> r == ([], b)
    ensures e.ReviewDoc? ==> r.0 == ValidateReview(b.review) && r.1.review == SanitizeReview(b.review)
    ensures e.CreateDoc? && router == TimesheetRouter ==>
      r.0 == ValidateTimesheet(b.sheet) && r.1.sheet == SanitizeTimesheet(b.sheet)
    ensures e.CreateDoc? && router == TimeOffRouter ==>
      r.0 == ValidateTimeOff(b.timeOff) && r.1.timeOff == SanitizeTimeOff(b.timeOff)
  {
    if ValidateBody !in Chain(e) then ([], b)
    else if e.ReviewDoc? then (ValidateReview(b.review), b.(review := SanitizeReview(b.review)))
    else if router == TimesheetRouter then (ValidateTimesheet(b.sheet), b.(sheet := SanitizeTimesheet(b.sheet)))
    else (ValidateTimeOff(b.timeOff), b.(timeOff := SanitizeTimeOff(b.timeOff)))
  }

  /** The answer fails exactly when the controller `c` fails, and then with the controller's error. */
  predicate Mirrors<T>(outcome: Result<Reply, ApiError>, c: Result<T, ApiError>) {
    && (outcome.Err? <==> c.Err?)
    && (c.Err? ==> outcome.error == c.error)
  }

  /** The answer reports document `id` written, with HTTP status `status`. */
  predicate WrittenWith(outcome: Result<Reply, ApiError>, id: Id, status: nat) {
    outcome.Ok? && outcome.value.Written? && outcome.value.id == id && outcome.value.status == status
  }

  /** Runs a request through its route's chain and handler. */
  function Handle(w: World, router: Router, req: Request, env: Env): (r: Response)
    requires Ready(w, env)
    ensures Route(router, req.verb, req.path).None? ==> r == Response(w, Err(NoSuchRoute), false)
    ensures r.destroySession ==> r.outcome == Err(InvalidSession)
    ensures r.world.accounts == w.accounts
  {
    match Route(router, req.verb, req.path)
    case None => Response(w, Err(NoSuchRoute), false)
    case Some(e) =>
      match Admit(Chain(e), req.session, w.accounts, None)
      case Refused(err, d) =>
        AdmitChain(e, req.session, w.accounts);
        Response(w, Err(err), d)
      case Admitted(user) =>
        var (errors, body) := Validated(router, e, req.body);
        if router == TimesheetRouter then SheetHandler(w, e, user, req.query, body, errors, env)
        else TimeOffHandler(w, e, user, req.query, body, errors, env)
  }

  function SheetHandler(w: World, e: Endpoint, user: User, q: PageQuery, b: Body, errors: seq<Violation>, env: Env)
    : (r: Response)
    requires Ready(w, env)
    ensures r.world.accounts == w.accounts && r.world.requests == w.requests && !r.destroySession
    ensures r.outcome.Err? ==> r.world == w
    ensures r.outcome == Err(InvalidAction) ==>
      e.ReviewDoc? && TC.Review(w.sheets, user.id, e.id, b.review, errors, env.now) == Err(InvalidAction)
  {
    match e
    case CreateDoc =>
      (match TC.CreateOrUpdate(w.sheets, user.id, b.sheet, errors, env.freshId)
       case Err(err) => Response(w, Err(err), false)
       case Ok(u) =>
         var message := if u.created then "Timesheet created successfully" else "Timesheet updated successfully";
         Response(w.(sheets := u.store), Ok(Written(u.id, if u.created then 201 else 200, message)), false))
    case ListMine =>
      (match TC.ListMine(w.sheets, env.sheetOrder, user.id, q)
       case Err(err) => Response(w, Err(err), false)
       case Ok(page) => Response(w, Ok(Listed(page)), false))
    case ListPending =>
      (match TC.ListPending(w.sheets, env.sheetOrder, q)
       case Err(err) => Response(w, Err(err), false)
       case Ok(page) => Response(w, Ok(Listed(page)), false))
    case Fetch(id) =>
      (match TC.GetById(w.sheets, user, id)
       case Err(err) => Response(w, Err(err), false)
       case Ok(t) => Response(w, Ok(FoundSheet(t)), false))
    case SubmitDoc(id) =>
      (match TC.Submit(w.sheets, user.id, id, env.now)
       case Err(err) => Response(w, Err(err), false)
       case Ok(s) => Response(w.(sheets := s), Ok(Written(id, 200, "Timesheet submitted successfully")), false))
    case ReviewDoc(id) =>
      (match TC.Review(w.sheets, user.id, id, b.review, errors, env.now)
       case Err(err) => Response(w, Err(err), false)
       case Ok(s) => Response(w.(sheets := s), Ok(Written(id, 200, ReviewedMessage("Timesheet", b.review.action))), false))
  }

  function TimeOffHandler(w: World, e: Endpoint, user: User, q: PageQuery, b: Body, errors: seq<Violation>, env: Env)
    : (r: Response)
    requires Ready(w, env)
    ensures r.world.accounts == w.accounts && r.world.sheets == w.sheets && !r.destroySession
    ensures r.outcome.Err? ==> r.world == w
    ensures r.outcome == Err(InvalidAction) ==>
      e.ReviewDoc? && TO.Review(w.requests, user.id, e.id, b.review, errors, env.now) == Err(InvalidAction)
  {
    match e
    case CreateDoc =>
      (match TO.Create(w.requests, user.id, b.timeOff, errors, env.now, env.freshId)
       case Err(err) => Response(w, Err(err), false)
       case Ok(s) => Response(w.(requests := s), Ok(Written(env.freshId, 201, "Time off request created successfully")), false))
    case ListMine =>
      (match TO.ListMine(w.requests, env.requestOrder, user.id, q)
       case Err(err) => Response(w, Err(err), false)
       case Ok(page) => Response(w, Ok(Listed(page)), false))
    case ListPending =>
      (match TO.ListPending(w.requests, env.requestOrder, q)
       case Err(err) => Response(w, Err(err), false)
       case Ok(page) => Response(w, Ok(Listed(page)), false))
    case Fetch(id) =>
      (match TO.GetById(w.requests, user, id)
       case Err(err) => Response(w, Err(err), false)
       case Ok(t) => Response(w, Ok(FoundRequest(t)), false))
    case SubmitDoc(_) => Response(w, Err(NoSuchRoute), false)
    case ReviewDoc(id) =>
      (match TO.Review(w.requests, user.id, id, b.review, errors, env.now)
       case Err(err) => Response(w, Err(err), false)
       case Ok(s) => Response(w.(requests := s), Ok(Written(id, 200, ReviewedMessage("Time off request", b.review.action))), false))
  }

  // ---- properties of the routing ----

  /** Create, submit and review answer with their timesheet controller's result: its error, or its store and the written document. */
  lemma SheetHandlerWrites(w: World, e: Endpoint, user: User, q: PageQuery, b: Body, errors: seq<Violation>, env: Env)
    requires Ready(w, env)
    ensures e.CreateDoc? ==>
      var r := SheetHandler(w, e, user, q, b, errors, env);
      var c := TC.CreateOrUpdate(w.sheets, user.id, b.sheet, errors, env.freshId);
      && Mirrors(r.outcome, c)
      && (c.Ok? ==> r.world.sheets == c.value.store && WrittenWith(r.outcome, c.value.id, if c.value.created then 201 else 200))
    ensures e.SubmitDoc? ==>
      var r := SheetHandler(w, e, user, q, b, errors, env);
      var c := TC.Submit(w.sheets, user.id, e.id, env.now);
      Mirrors(r.outcome, c) && (c.Ok? ==> r.world.sheets == c.value && WrittenWith(r.outcome, e.id, 200))
    ensures e.ReviewDoc? ==>
      var r := SheetHandler(w, e, user, q, b, errors, env);
      var c := TC.Review(w.sheets, user.id, e.id, b.review, errors, env.now);
      && Mirrors(r.outcome, c)
      && (c.Ok? ==> r.world.sheets == c.value && WrittenWith(r.outcome, e.id, 200))
      && (c.Ok? ==> r.outcome.value.message == ReviewedMessage("Timesheet", b.review.action))
  {
  }

  /** The listings and the fetch answer with their timesheet controller's result and change nothing. */
  lemma SheetHandlerReads(w: World, e: Endpoint, user: User, q: PageQuery, b: Body, errors: seq<Violation>, env: Env)
    requires Ready(w, env)
    ensures e.ListMine? ==>
      var r := SheetHandler(w, e, user, q, b, errors, env);
      var c := TC.ListMine(w.sheets, env.sheetOrder, user.id, q);
      Mirrors(r.outcome, c) && (c.Ok? ==> r == Response(w, Ok(Listed(c.value)), false))
    ensures e.ListPending? ==>
      var r := SheetHandler(w, e, user, q, b, errors, env);
      var c := TC.ListPending(w.sheets, env.sheetOrder, q);
      Mirrors(r.outcome, c) && (c.Ok? ==> r == Response(w, Ok(Listed(c.value)), false))
    ensures e.Fetch? ==>
      var r := SheetHandler(w, e, user, q, b, errors, env);
      var c := TC.GetById(w.sheets, user, e.id);
      Mirrors(r.outcome, c) && (c.Ok? ==> r == Response(w, Ok(FoundSheet(c.value)), false))
  {
  }

  /** Create and review answer with their time-off controller's result: its error, or its store and the written document. */
  lemma TimeOffHandlerWrites(w: World, e: Endpoint, user: User, q: PageQuery, b: Body, errors: seq<Violation>, env: Env)
    requires Ready(w, env)
    ensures e.CreateDoc? ==>
      var r := TimeOffHandler(w, e, user, q, b, errors, env);
      var c := TO.Create(w.requests, user.id, b.timeOff, errors, env.now, env.freshId);
      Mirrors(r.outcome, c) && (c.Ok? ==> r.world.requests == c.value && WrittenWith(r.outcome, env.freshId, 201))
    ensures e.SubmitDoc? ==> TimeOffHandler(w, e, user, q, b, errors, env) == Response(w, Err(NoSuchRoute), false)
    ensures e.ReviewDoc? ==>
      var r := TimeOffHandler(w, e, user, q, b, errors, env);
      var c := TO.Review(w.requests, user.id, e.id, b.review, errors, env.now);
      && Mirrors(r.outcome, c)
      && (c.Ok? ==> r.world.requests == c.value && WrittenWith(r.outcome, e.id, 200))
      && (c.Ok? ==> r.outcome.value.message == ReviewedMessage("Time off request", b.review.action))
  {
  }

  /** The listings and the fetch answer with their time-off controller's result and change nothing. */
  lemma TimeOffHandlerReads(w: World, e: Endpoint, user: User, q: PageQuery, b: Body, errors: seq<Violation>, env: Env)
    requires Ready(w, env)
    ensures e.ListMine? ==>
      var r := TimeOffHandler(w, e, user, q, b, errors, env);
      var c := TO.ListMine(w.requests, env.requestOrder, user.id, q);
      Mirrors(r.outcome, c) && (c.Ok? ==> r == Response(w, Ok(Listed(c.value)), false))
    ensures e.ListPending? ==>
      var r := TimeOffHandler(w, e, user, q, b, errors, env);
      var c := TO.ListPending(w.requests, env.requestOrder, q);
      Mirrors(r.outcome, c) && (c.Ok? ==> r == Response(w, Ok(Listed(c.value)), false))
    ensures e.Fetch? ==>
      var r := TimeOffHandler(w, e, user, q, b, errors, env);
      var c := TO.GetById(w.requests, user, e.id);
      Mirrors(r.outcome, c) && (c.Ok? ==> r == Response(w, Ok(FoundRequest(c.value)), false))
  {
  }

  /** An admitted request reaches its router's handler, with the errors and the body its chain's validator hands on. */
  lemma AdmittedReachesHandler(w: World, router: Router, req: Request, env: Env, e: Endpoint, user: User)
    requires Ready(w, env)
    requires Route(router, req.verb, req.path) == Some(e)
    requires Admit(Chain(e), req.session, w.accounts, None) == Admitted(user)
    ensures var v := Validated(router, e, req.body);
      Handle(w, router, req, env)
        == if router == TimesheetRouter then SheetHandler(w, e, user, req.query, v.1, v.0, env)
           else TimeOffHandler(w, e, user, req.query, v.1, v.0, env)
  {
  }

  /**
   * The fetch routes guard only the session: whether the document may be
   * read is the controller's decision, so a signed-in user gets a document
   * exactly when a manager asks or it is their own, and nothing changes.
   */
  lemma FetchLeavesOwnershipToController(w: World, router: Router, req: Request, env: Env, id: Id)
    requires Ready(w, env)
    requires Route(router, req.verb, req.path) == Some(Fetch(id))
    requires Authenticate(req.session, w.accounts).Proceed?
    ensures var r := Handle(w, router, req, env);
      var u := Authenticate(req.session, w.accounts).user;
      && r.world == w
      && (router == TimesheetRouter ==> (r.outcome.Ok? <==> id in w.sheets && (u.role == Manager || w.sheets[id].employee == u.id)))
      && (router == TimeOffRouter ==> (r.outcome.Ok? <==> id in w.requests && (u.role == Manager || w.requests[id].employee == u.id)))
  {
    var u := Authenticate(req.session, w.accounts).user;
    AdmitChain(Fetch(id), req.session, w.accounts);
    AdmittedReachesHandler(w, router, req, env, Fetch(id), u);
    var v := Validated(router, Fetch(id), req.body);
    if router == TimesheetRouter {
      SheetHandlerReads(w, Fetch(id), u, req.query, v.1, v.0, env);
    } else {
      TimeOffHandlerReads(w, Fetch(id), u, req.query, v.1, v.0, env);
    }
  }

  /** A one-segment GET reaches `getById` exactly when the segment is neither `my` nor `pending`. */
  lemma GetOneSegment(router: Router, x: string)
    requires x != ""
    ensures Route(router, Get, [x]) == Some(Fetch(x)) <==> x != "my" && x != "pending"
    ensures x == "my" ==> Route(router, Get, [x]) == Some(ListMine)
    ensures x == "pending" ==> Route(router, Get, [x]) == Some(ListPending)
  {
  }

  /** Time-off requests have no submit route: they are created already Pending. */
  lemma TimeOffHasNoSubmit(id: Id)
    ensures Route(TimeOffRouter, Post, [id, "submit"]) == None
  {
  }

  /** A request with no signed-in user is refused with 401 on every route, and changes nothing. */
  lemma SignedOutIsRefused(w: World, router: Router, req: Request, env: Env)
    requires Ready(w, env)
    requires Route(router, req.verb, req.path).Some?
    requires !SignedIn(req.session)
    ensures Handle(w, router, req, env) == Response(w, Err(LoginRequired), false)
  {
    AdmitChain(Route(router, req.verb, req.path).value, req.session, w.accounts);
  }

  /** An employee reaching a manager-only route (the pending lists, the reviews) gets 403 and changes nothing. */
  lemma EmployeesCannotReview(w: World, router: Router, req: Request, env: Env)
    requires Ready(w, env)
    requires Route(router, req.verb, req.path).Some?
    requires Route(router, req.verb, req.path).value == ListPending || Route(router, req.verb, req.path).value.ReviewDoc?
    requires Authenticate(req.session, w.accounts).Proceed?
    requires Authenticate(req.session, w.accounts).user.role == Employee
    ensures Handle(w, router, req, env) == Response(w, Err(InsufficientPermissions), false)
  {
    AdmitChain(Route(router, req.verb, req.path).value, req.session, w.accounts);
  }

  /** Through the routers, a review never answers "Invalid action": the validator refuses other actions first. */
  lemma RoutedReviewNeverInvalidAction(w: World, router: Router, req: Request, env: Env)
    requires Ready(w, env)
    ensures Handle(w, router, req, env).outcome != Err(InvalidAction)
  {
    var e := Route(router, req.verb, req.path);
    if e.Some? && e.value.ReviewDoc? && Admit(Chain(e.value), req.session, w.accounts, None).Admitted? {
      var user := Admit(Chain(e.value), req.session, w.accounts, None).user;
      var (errors, b) := Validated(router, e.value, req.body);
      if errors == [] {
        if router == TimesheetRouter {
          TC.RoutedReviewHasAction(w.sheets, user.id, e.value.id, req.body.review, env.now);
        } else {
          TO.RoutedReviewHasAction(w.requests, user.id, e.value.id, req.body.review, env.now);
        }
      }
    }
  }

  /** The timesheet handlers keep the timesheet invariant. */
  lemma SheetHandlerPreservesInvariant(w: World, e: Endpoint, user: User, q: PageQuery, b: Body, errors: seq<Violation>, env: Env)
    requires Ready(w, env) && TC.Invariant(w.sheets)
    ensures TC.Invariant(SheetHandler(w, e, user, q, b, errors, env).world.sheets)
  {
    match e
    case CreateDoc =>
      var r := TC.CreateOrUpdate(w.sheets, user.id, b.sheet, errors, env.freshId);
      if r.Ok? {
        var p := b.sheet;
        TC.UpsertPreservesInvariant(w.sheets, user.id, p.weekStartDate.value, TimesheetSchema.CastEntries(p.entries.value).value, env.freshId);
      }
    case SubmitDoc(id) => TC.SubmitPreservesInvariant(w.sheets, user.id, id, env.now);
    case ReviewDoc(id) => TC.ReviewPreservesInvariant(w.sheets, user.id, id, b.review, errors, env.now);
    case _ =>
  }

  /** The time-off handlers keep the time-off invariant. */
  lemma TimeOffHandlerPreservesInvariant(w: World, e: Endpoint, user: User, q: PageQuery, b: Body, errors: seq<Violation>, env: Env)
    requires Ready(w, env) && TO.Invariant(w.requests)
    ensures TO.Invariant(TimeOffHandler(w, e, user, q, b, errors, env).world.requests)
  {
    match e
    case CreateDoc =>
      if TO.Create(w.requests, user.id, b.timeOff, errors, env.now, env.freshId).Ok? {
        TO.CreatePreservesInvariant(w.requests, user.id, b.timeOff, errors, env.now, env.freshId);
      }
    case ReviewDoc(id) => TO.ReviewPreservesInvariant(w.requests, user.id, id, b.review, errors, env.now);
    case _ =>
  }

  /** Both collections keep their invariants through every request. */
  lemma HandlePreservesInvariants(w: World, router: Router, req: Request, env: Env)
    requires Ready(w, env)
    requires TC.Invariant(w.sheets) && TO.Invariant(w.requests)
    ensures TC.Invariant(Handle(w, router, req, env).world.sheets)
    ensures TO.Invariant(Handle(w, router, req, env).world.requests)
  {
    var e := Route(router, req.verb, req.path);
    if e.Some? && Admit(Chain(e.value), req.session, w.accounts, None).Admitted? {
      var user := Admit(Chain(e.value), req.session, w.accounts, None).user;
      var (errors, b) := Validated(router, e.value, req.body);
      if router == TimesheetRouter {
        SheetHandlerPreservesInvariant(w, e.value, user, req.query, b, errors, env);
      } else {
        TimeOffHandlerPreservesInvariant(w, e.value, user, req.query, b, errors, env);
      }
    }
  }
}

=== FILE: text.dfy ===
/**
 * String trimming as performed by `String.prototype.trim`, the `trim: true`
 * schema option and the `trim()` sanitizer of the request validators. All
 * three strip the same set of characters: the ECMAScript white space and
 * line terminator code points.
 */
module Text {
  import opened Wrappers

  /** ECMAScript WhiteSpace or LineTerminator (the characters `\s` matches). */
  predicate IsSpace(c: char) {
    || c == ' ' || c == '\t' || c == '\n' || c == '\r'
    || c == '\U{000B}' || c == '\U{000C}' || c == '\U{00A0}' || c == '\U{FEFF}'
    || c == '\U{1680}' || ('\U{2000}' <= c <= '\U{200A}')
    || c == '\U{2028}' || c == '\U{2029}' || c == '\U{202F}' || c == '\U{205F}'
    || c == '\U{3000}'
  }

  /** Every character of `s` is white space (true of the empty string). */
  predicate AllSpace(s: string) {
    forall i :: 0 <= i < |s| ==> IsSpace(s[i])
  }

  /** Neither end of `s` is white space. */
  predicate IsTrimmed(s: string) {
    s == [] || (!IsSpace(s[0]) && !IsSpace(s[|s| - 1]))
  }

  /**
   * Drops the white space at both ends of `s`: the result is trimmed, no
   * longer than `s`, and empty exactly when `s` is all white space.
   */
  function Trim(s: string): (r: string)
    ensures |r| <= |s|
    ensures IsTrimmed(r)
    ensures r == [] <==> AllSpace(s)
    decreases |s|
  {
    if s == [] then s
    else if IsSpace(s[0]) then
      assert AllSpace(s) <==> AllSpace(s[1..]) by {
        if AllSpace(s[1..]) {
          forall k | 0 <= k < |s| ensures IsSpace(s[k]) {
            if k > 0 { assert s[k] == s[1..][k - 1]; }
          }
        }
      }
      Trim(s[1..])
    else if IsSpace(s[|s| - 1]) then
      assert !AllSpace(s[..|s| - 1]) by { assert s[..|s| - 1][0] == s[0]; }
      Trim(s[..|s| - 1])
    else s
  }

  /**
   * What `Trim` removes is white space at the two ends and nothing else:
   * the result is the slice `s[i..j]` with only white space before `i`
   * and after `j`. With `IsTrimmed`, this pins the result down.
   */
  lemma {:induction false} TrimIsInnerSlice(s: string)
    ensures exists i, j :: 0 <= i <= j <= |s| && Trim(s) == s[i..j] && AllSpace(s[..i]) && AllSpace(s[j..])
    decreases |s|
  {
    if s == [] {
      assert Trim(s) == s[0..0] && AllSpace(s[..0]) && AllSpace(s[0..]);
    } else if IsSpace(s[0]) {
      var t := s[1..];
      assert Trim(s) == Trim(t);
      TrimIsInnerSlice(t);
      var i, j :| 0 <= i <= j <= |t| && Trim(t) == t[i..j] && AllSpace(t[..i]) && AllSpace(t[j..]);
      SliceAfterHead(s, i, j);
      assert Trim(s) == s[i + 1..j + 1] && AllSpace(s[..i + 1]) && AllSpace(s[j + 1..]);
    } else if IsSpace(s[|s| - 1]) {
      var t := s[..|s| - 1];
      assert Trim(s) == Trim(t);
      TrimIsInnerSlice(t);
      var i, j :| 0 <= i <= j <= |t| && Trim(t) == t[i..j] && AllSpace(t[..i]) && AllSpace(t[j..]);
      SliceBeforeLast(s, i, j);
      assert Trim(s) == s[i..j] && AllSpace(s[..i]) && AllSpace(s[j..]);
    } else {
      assert Trim(s) == s[0..|s|] && AllSpace(s[..0]) && AllSpace(s[|s|..]);
    }
  }

  /** A slice of `s[1..]` bordered by white space, seen in `s` when `s[0]` is white space too. */
  lemma SliceAfterHead(s: string, i: int, j: int)
    requires s != [] && IsSpace(s[0]) && 0 <= i <= j <= |s| - 1
    requires AllSpace(s[1..][..i]) && AllSpace(s[1..][j..])
    ensures s[1..][i..j] == s[i + 1..j + 1]
    ensures AllSpace(s[..i + 1]) && AllSpace(s[j + 1..])
  {
    var pre := s[..i + 1];
    forall k | 0 <= k < |pre| ensures IsSpace(pre[k]) {
      if k > 0 { assert pre[k] == s[1..][..i][k - 1]; }
    }
    assert s[1..][j..] == s[j + 1..];
  }

  /** A slice of `s[..|s| - 1]` bordered by white space, seen in `s` when its last character is white space too. */
  lemma SliceBeforeLast(s: string, i: int, j: int)
    requires s != [] && IsSpace(s[|s| - 1]) && 0 <= i <= j <= |s| - 1
    requires AllSpace(s[..|s| - 1][..i]) && AllSpace(s[..|s| - 1][j..])
    ensures s[..|s| - 1][i..j] == s[i..j]
    ensures AllSpace(s[..i]) && AllSpace(s[j..])
  {
    assert s[..|s| - 1][..i] == s[..i];
    var post := s[j..];
    var t := s[..|s| - 1][j..];
    forall k | 0 <= k < |post| ensures IsSpace(post[k]) {
      if k < |t| { assert post[k] == t[k]; }
    }
  }

  /** Trimming an already trimmed string leaves it as it is. */
  lemma TrimIdempotent(s: string)
    requires IsTrimmed(s)
    ensures Trim(s) == s
  {
  }

  /** An optional field with `trim`: a present value is stored trimmed, an absent one stays absent. */
  function TrimOptional(s: Option<string>): (r: Option<string>)
    ensures r.Some? <==> s.Some?
    ensures r.Some? ==> r.value == Trim(s.value) && IsTrimmed(r.value)
  {
    match s
    case None => None
    case Some(v) => Some(Trim(v))
  }
}

=== FILE: timeoff_controller.dfy ===
/**
 * `controllers/timeOffController.js` over a collection of time-off requests
 * held as a map from document id to document. As for timesheets, the
 * signed-in user, the sanitized body, the validation result, the current
 * time and the id of an inserted document are parameters.
 */
module TimeOffController {
  import opened Wrappers
  import opened Text
  import opened Domain
  import opened Dates
  import opened Payloads
  import opened Validation
  import opened TimeOffSchema
  import opened Listing

  type Store = map<Id, TimeOffRequest>

  /** The statuses the conflict query looks at: `{ $in: ['Pending', 'Approved'] }`. */
  predicate Active(r: TimeOffRequest) {
    r.status == Pending || r.status == Approved
  }

  /** The conflict query's period test: the two closed periods share at least one instant. */
  predicate Overlaps(r: TimeOffRequest, fromDate: Millis, toDate: Millis) {
    r.fromDate <= toDate && r.toDate >= fromDate
  }

  /** Some active request of `user` overlaps the period. */
  predicate Conflicts(store: Store, user: Id, fromDate: Millis, toDate: Millis) {
    exists id :: id in store && store[id].employee == user && Active(store[id]) && Overlaps(store[id], fromDate, toDate)
  }

  /** No employee has two active requests whose periods overlap. */
  predicate NoOverlap(store: Store) {
    forall a, b ::
      (a in store && b in store && a != b && store[a].employee == store[b].employee
       && Active(store[a]) && Active(store[b])) ==> !Overlaps(store[a], store[b].fromDate, store[b].toDate)
  }

  /** What every stored request satisfies once written through the handlers below. */
  predicate RequestInvariant(r: TimeOffRequest) {
    && SchemaValid(r)
    && r.daysRequested == DaysRequested(r.fromDate, r.toDate)
    && (r.status != Pending ==> r.reviewedAt.Some? && r.reviewedBy.Some?)
  }

  predicate Invariant(store: Store) {
    NoOverlap(store) && forall id :: id in store ==> RequestInvariant(store[id])
  }

  /**
   * The checks of `createTimeOffRequest` before the save, and the unsaved
   * document: a failed validation is answered with the violations, a
   * missing date is an exception (500), an overlap with an active request of
   * the same employee is refused; the new request is Pending.
   */
  function PrepareCreate(store: Store, user: Id, p: TimeOffPayload, errors: seq<Violation>, now: Millis)
    : (r: Result<TimeOffRequest, ApiError>)
    ensures errors != [] ==> r == Err(ValidationFailed(errors))
    ensures errors == [] && (p.fromDate.None? || p.toDate.None?) ==> r == Err(ServerError)
    ensures errors == [] && p.fromDate.Some? && p.toDate.Some? ==>
      (r == Err(PeriodConflict) <==> Conflicts(store, user, p.fromDate.value, p.toDate.value))
    ensures r.Ok? ==> errors == [] && p.fromDate.Some? && p.toDate.Some?
    ensures r.Ok? ==>
      && r.value.employee == user && r.value.fromDate == p.fromDate.value && r.value.toDate == p.toDate.value
      && r.value.reason == Trim(p.reason) && r.value.status == Pending && r.value.createdAt == now
      && r.value.reviewedAt.None? && r.value.reviewedBy.None? && r.value.rejectionReason.None?
  {
    if errors != [] then Err(ValidationFailed(errors))
    else if p.fromDate.None? || p.toDate.None? then Err(ServerError)
    else
      var fromDate, toDate := p.fromDate.value, p.toDate.value;
      if Conflicts(store, user, fromDate, toDate) then Err(PeriodConflict)
      else Ok(TimeOffRequest(user, fromDate, toDate, Trim(p.reason), Pending, None, None, None, 0, now))
  }

  /**
   * `createTimeOffRequest`, with the request's day count computed before the
   * schema validators run, so that the `daysRequested` the pre-save hook
   * computes is present when the schema's `required` check of that path runs
   * (backend/models/TimeOffRequest.js:46-58): a request that passes the
   * checks is saved (the period must be in order) and inserted under `freshId`.
   */
  function Create(store: Store, user: Id, p: TimeOffPayload, errors: seq<Violation>, now: Millis, freshId: Id)
    : (r: Result<Store, ApiError>)
    requires freshId !in store
    ensures r.Err? && PrepareCreate(store, user, p, errors, now).Err? ==> r.error == PrepareCreate(store, user, p, errors, now).error
    ensures r.Err? && PrepareCreate(store, user, p, errors, now).Ok? ==> r.error == ServerError
    ensures r.Ok? <==> PrepareCreate(store, user, p, errors, now).Ok? && SchemaValid(PrepareCreate(store, user, p, errors, now).value)
    ensures r.Ok? ==> r.value.Keys == store.Keys + {freshId} && forall id :: id in store ==> r.value[id] == store[id]
    ensures r.Ok? ==>
      var t := r.value[freshId];
      && t.daysRequested == DaysRequested(t.fromDate, t.toDate) && t.daysRequested >= 1
      && t == PrepareCreate(store, user, p, errors, now).value.(daysRequested := t.daysRequested)
  {
    match PrepareCreate(store, user, p, errors, now)
    case Err(e) => Err(e)
    case Ok(doc) =>
      match Save(doc)
      case Err(e) => Err(e)
      case Ok(saved) => Ok(store[freshId := saved])
  }

  /**
   * `createTimeOffRequest` as Mongoose runs it: the new document reaches
   * the `required` check of `daysRequested` before the pre-save hook sets it.
   */
  function CreateAsWritten(store: Store, user: Id, p: TimeOffPayload, errors: seq<Violation>, now: Millis, freshId: Id)
    : (r: Result<Store, ApiError>)
    requires freshId !in store
    ensures PrepareCreate(store, user, p, errors, now).Err? ==> r == Err(PrepareCreate(store, user, p, errors, now).error)
  {
    match PrepareCreate(store, user, p, errors, now)
    case Err(e) => Err(e)
    case Ok(doc) =>
      match SaveValidatingFirst(doc, false)
      case Err(e) => Err(e)
      case Ok(saved) => Ok(store[freshId := saved])
  }

  /** As written, no request is ever created: every request that passes the checks is answered with 500. */
  lemma CreateAsWrittenNeverCreates(store: Store, user: Id, p: TimeOffPayload, errors: seq<Violation>, now: Millis, freshId: Id)
    requires freshId !in store
    ensures CreateAsWritten(store, user, p, errors, now, freshId).Err?
    ensures PrepareCreate(store, user, p, errors, now).Ok? ==>
      CreateAsWritten(store, user, p, errors, now, freshId) == Err(ServerError)
  {
  }

  /**
   * `approveOrRejectTimeOff`: only a Pending request; `approve` and `reject`
   * set the status, `reject` also the rejection reason, and both record the
   * reviewer and the time. Any other action is refused.
   */
  function Review(store: Store, reviewer: Id, id: Id, p: ReviewPayload, errors: seq<Violation>, now: Millis)
    : (r: Result<Store, ApiError>)
    ensures errors != [] ==> r == Err(ValidationFailed(errors))
    ensures errors == [] && id !in store ==> r == Err(TimeOffNotFound)
    ensures errors == [] && id in store && store[id].status != Pending ==> r == Err(OnlyPendingReviewable)
    ensures errors == [] && id in store && store[id].status == Pending && p.action != "approve" && p.action != "reject"
      ==> r == Err(InvalidAction)
    ensures errors == [] && id in store && store[id].status == Pending && (p.action == "approve" || p.action == "reject")
      ==> && (r.Ok? <==> SchemaValid(store[id].(
                rejectionReason := if p.action == "reject" then TrimOptional(p.rejectionReason) else store[id].rejectionReason)))
          && (r.Err? ==> r == Err(ServerError))
    ensures r == Err(ServerError) ==> id in store
    ensures r.Ok? ==> id in store && store[id].status == Pending
    ensures r.Ok? ==> r.value.Keys == store.Keys && forall k :: k in store && k != id ==> r.value[k] == store[k]
    ensures r.Ok? ==> r.value[id].status == (if p.action == "approve" then Approved else Rejected)
    ensures r.Ok? ==> r.value[id].reviewedAt == Some(now) && r.value[id].reviewedBy == Some(reviewer)
    ensures r.Ok? ==>
      r.value[id].rejectionReason == (if p.action == "reject" then TrimOptional(p.rejectionReason) else store[id].rejectionReason)
    ensures r.Ok? ==>
      && r.value[id].employee == store[id].employee
      && r.value[id].fromDate == store[id].fromDate && r.value[id].toDate == store[id].toDate
      && r.value[id].reason == store[id].reason && r.value[id].createdAt == store[id].createdAt
    ensures r.Ok? ==> r.value[id] == store[id].(
      status := if p.action == "approve" then Approved else Rejected,
      rejectionReason := if p.action == "reject" then TrimOptional(p.rejectionReason) else store[id].rejectionReason,
      reviewedAt := Some(now), reviewedBy := Some(reviewer),
      daysRequested := DaysRequested(store[id].fromDate, store[id].toDate))
  {
    if errors != [] then Err(ValidationFailed(errors))
    else if id !in store then Err(TimeOffNotFound)
    else
      var t := store[id];
      if t.status != Pending then Err(OnlyPendingReviewable)
      else if p.action != "approve" && p.action != "reject" then Err(InvalidAction)
      else
        var decided :=
          if p.action == "approve" then t.(status := Approved)
          else t.(status := Rejected, rejectionReason := TrimOptional(p.rejectionReason));
        match Save(decided.(reviewedAt := Some(now), reviewedBy := Some(reviewer)))
        case Err(e) => Err(e)
        case Ok(s) => Ok(store[id := s])
  }

  /** `getTimeOffRequestById`: a manager may read any request, an employee only their own. */
  function GetById(store: Store, principal: User, id: Id): (r: Result<TimeOffRequest, ApiError>)
    ensures r.Ok? <==> id in store && (principal.role == Manager || store[id].employee == principal.id)
    ensures r.Ok? ==> r.value == store[id]
    ensures id !in store ==> r == Err(TimeOffNotFound)
    ensures id in store && !r.Ok? ==> r == Err(AccessDenied)
  {
    if id !in store then Err(TimeOffNotFound)
    else if principal.role == Employee && store[id].employee != principal.id then Err(AccessDenied)
    else
      assert principal.role == Manager || store[id].employee == principal.id;
      Ok(store[id])
  }

  predicate MineSelects(store: Store, user: Id, filter: Option<string>, id: Id) {
    id in store && store[id].employee == user && (filter.None? || StatusName(store[id].status) == filter.value)
  }

  predicate PendingSelects(store: Store, id: Id) {
    id in store && store[id].status == Pending
  }

  function CreatedAtKey(store: Store, id: Id): Option<int> {
    if id in store then Some(store[id].createdAt) else None
  }

  /** The selection `getMyTimeOffRequests` makes, as a predicate over ids. */
  function MineKeep(store: Store, user: Id, filter: Option<string>): Id -> bool {
    id => MineSelects(store, user, filter, id)
  }

  function PendingKeep(store: Store): Id -> bool {
    id => PendingSelects(store, id)
  }

  function CreatedAtKeyOf(store: Store): Id -> Option<int> {
    id => CreatedAtKey(store, id)
  }

  lemma MineSelection(store: Store, order: seq<Id>, user: Id, q: PageQuery)
    requires Enumerates(order, store)
    ensures var r := ListPage(store, order, MineKeep(store, user, q.StatusFilter()), CreatedAtKeyOf(store), true, q);
      r.Ok? ==> (forall i :: 0 <= i < |r.value.items| ==> MineSelects(store, user, q.StatusFilter(), r.value.items[i])) && r.value.total == |set id | id in store && MineSelects(store, user, q.StatusFilter(), id)|
  {
    var keep := MineKeep(store, user, q.StatusFilter());
    assert (set id | id in store && keep(id)) == (set id | id in store && MineSelects(store, user, q.StatusFilter(), id));
  }

  lemma MineOrder(store: Store, order: seq<Id>, user: Id, q: PageQuery)
    requires Enumerates(order, store)
    ensures var r := ListPage(store, order, MineKeep(store, user, q.StatusFilter()), CreatedAtKeyOf(store), true, q);
      r.Ok? ==> forall i, j :: 0 <= i < j < |r.value.items| ==>
        KeyLe(CreatedAtKey(store, r.value.items[j]), CreatedAtKey(store, r.value.items[i]))
  {
    var key := CreatedAtKeyOf(store);
    var r := ListPage(store, order, MineKeep(store, user, q.StatusFilter()), key, true, q);
    assert r.Ok? ==> forall i, j :: 0 <= i < j < |r.value.items| ==> InOrder(key(r.value.items[i]), key(r.value.items[j]), true);
  }

  lemma PendingSelection(store: Store, order: seq<Id>, q: PageQuery)
    requires Enumerates(order, store)
    ensures var r := ListPage(store, order, PendingKeep(store), CreatedAtKeyOf(store), false, q);
      r.Ok? ==> (forall i :: 0 <= i < |r.value.items| ==> PendingSelects(store, r.value.items[i])) && r.value.total == |set id | id in store && PendingSelects(store, id)|
  {
    var keep := PendingKeep(store);
    assert (set id | id in store && keep(id)) == (set id | id in store && PendingSelects(store, id));
  }

  lemma PendingOrder(store: Store, order: seq<Id>, q: PageQuery)
    requires Enumerates(order, store)
    ensures var r := ListPage(store, order, PendingKeep(store), CreatedAtKeyOf(store), false, q);
      r.Ok? ==> forall i, j :: 0 <= i < j < |r.value.items| ==>
        KeyLe(CreatedAtKey(store, r.value.items[i]), CreatedAtKey(store, r.value.items[j]))
  {
    var key := CreatedAtKeyOf(store);
    var r := ListPage(store, order, PendingKeep(store), key, false, q);
    assert r.Ok? ==> forall i, j :: 0 <= i < j < |r.value.items| ==> InOrder(key(r.value.items[i]), key(r.value.items[j]), false);
  }

  /** `getMyTimeOffRequests`: the user's requests, optionally of one status, newest first, one page. */
  function ListMine(store: Store, order: seq<Id>, user: Id, q: PageQuery): (r: Result<Page, ApiError>)
    requires Enumerates(order, store)
    ensures r.Err? <==> (q.Page() - 1) * q.Limit() < 0
    ensures r.Ok? ==> forall i :: 0 <= i < |r.value.items| ==> MineSelects(store, user, q.StatusFilter(), r.value.items[i])
    ensures r.Ok? ==> Distinct(r.value.items)
    ensures r.Ok? ==> forall i, j :: 0 <= i < j < |r.value.items| ==>
      KeyLe(CreatedAtKey(store, r.value.items[j]), CreatedAtKey(store, r.value.items[i]))
    ensures r.Ok? ==> r.value.total == |set id | id in store && MineSelects(store, user, q.StatusFilter(), id)|
    ensures r.Ok? ==> exists s :: Arrangement(s, store, MineKeep(store, user, q.StatusFilter()), CreatedAtKeyOf(store), true) && |s| == r.value.total && Window(s, q.Page(), q.Limit()) == Ok(r.value.items)
    ensures r.Ok? ==> r.value.totalPages == TotalPages(r.value.total, q.Limit()) && r.value.currentPage == q.Page()
  {
    MineSelection(store, order, user, q);
    MineOrder(store, order, user, q);
    ListPage(store, order, MineKeep(store, user, q.StatusFilter()), CreatedAtKeyOf(store), true, q)
  }

  /** `getPendingTimeOffRequests`: every Pending request, oldest first, one page. */
  function ListPending(store: Store, order: seq<Id>, q: PageQuery): (r: Result<Page, ApiError>)
    requires Enumerates(order, store)
    ensures r.Err? <==> (q.Page() - 1) * q.Limit() < 0
    ensures r.Ok? ==> forall i :: 0 <= i < |r.value.items| ==> PendingSelects(store, r.value.items[i])
    ensures r.Ok? ==> Distinct(r.value.items)
    ensures r.Ok? ==> forall i, j :: 0 <= i < j < |r.value.items| ==>
      KeyLe(CreatedAtKey(store, r.value.items[i]), CreatedAtKey(store, r.value.items[j]))
    ensures r.Ok? ==> r.value.total == |set id | id in store && PendingSelects(store, id)|
    ensures r.Ok? ==> exists s :: Arrangement(s, store, PendingKeep(store), CreatedAtKeyOf(store), false) && |s| == r.value.total && Window(s, q.Page(), q.Limit()) == Ok(r.value.items)
    ensures r.Ok? ==> r.value.totalPages == TotalPages(r.value.total, q.Limit()) && r.value.currentPage == q.Page()
  {
    PendingSelection(store, order, q);
    PendingOrder(store, order, q);
    ListPage(store, order, PendingKeep(store), CreatedAtKeyOf(store), false, q)
  }

  // ---- properties ----

  lemma CreatePreservesInvariant(store: Store, user: Id, p: TimeOffPayload, errors: seq<Violation>, now: Millis, freshId: Id)
    requires Invariant(store) && freshId !in store
    requires Create(store, user, p, errors, now, freshId).Ok?
    ensures Invariant(Create(store, user, p, errors, now, freshId).value)
  {
    var s := Create(store, user, p, errors, now, freshId).value;
    var t := s[freshId];
    assert !Conflicts(store, user, t.fromDate, t.toDate);
    forall a, b | a in s && b in s && a != b && s[a].employee == s[b].employee && Active(s[a]) && Active(s[b])
      ensures !Overlaps(s[a], s[b].fromDate, s[b].toDate)
    {
      if a == freshId {
        assert !Overlaps(store[b], t.fromDate, t.toDate);
      } else if b == freshId {
        assert !Overlaps(store[a], t.fromDate, t.toDate);
      }
    }
  }

  lemma ReviewPreservesInvariant(store: Store, reviewer: Id, id: Id, p: ReviewPayload, errors: seq<Violation>, now: Millis)
    requires Invariant(store)
    ensures Review(store, reviewer, id, p, errors, now).Ok? ==> Invariant(Review(store, reviewer, id, p, errors, now).value)
  {
    var r := Review(store, reviewer, id, p, errors, now);
    if r.Ok? {
      ReviewKeepsPeriods(store, r.value, id);
      assert RequestInvariant(r.value[id]);
    }
  }

  /** Replacing one request by a decided one with the same employee and period keeps periods apart. */
  lemma ReviewKeepsPeriods(store: Store, s: Store, id: Id)
    requires NoOverlap(store)
    requires id in store && s.Keys == store.Keys
    requires forall k :: k in store && k != id ==> s[k] == store[k]
    requires s[id].employee == store[id].employee
    requires s[id].fromDate == store[id].fromDate && s[id].toDate == store[id].toDate
    requires Active(s[id]) ==> Active(store[id])
    ensures NoOverlap(s)
  {
    assert forall k :: k in s && Active(s[k]) ==> Active(store[k]);
  }

  /** A review that passed `validateReview` never reaches the "Invalid action" branch. */
  lemma RoutedReviewHasAction(store: Store, reviewer: Id, id: Id, p: ReviewPayload, now: Millis)
    requires ValidateReview(p) == []
    ensures Review(store, reviewer, id, SanitizeReview(p), [], now) != Err(InvalidAction)
  {
  }

  /** On a consistent store, a validated decision on a Pending request is recorded. */
  lemma ReviewSucceeds(store: Store, reviewer: Id, id: Id, p: ReviewPayload, now: Millis)
    requires Invariant(store) && ValidateReview(p) == []
    requires id in store && store[id].status == Pending
    ensures Review(store, reviewer, id, SanitizeReview(p), [], now).Ok?
    ensures Review(store, reviewer, id, SanitizeReview(p), [], now).value[id].status
      == if p.action == "approve" then Approved else Rejected
  {
    RoutedReviewSaves(store, reviewer, id, p, now);
  }

  /** A validated review of a stored request never fails its save: the rejection reason fits the schema. */
  lemma RoutedReviewSaves(store: Store, reviewer: Id, id: Id, p: ReviewPayload, now: Millis)
    requires Invariant(store)
    requires ValidateReview(p) == []
    ensures Review(store, reviewer, id, SanitizeReview(p), [], now) != Err(ServerError)
  {
    if id in store {
      assert RequestInvariant(store[id]);
    }
    if p.rejectionReason.Some? {
      TrimIdempotent(Trim(p.rejectionReason.value));
    }
  }

  /**
   * A validated request for an ordered period that no active request of the
   * same employee overlaps is created, Pending, counting its days.
   */
  lemma RoutedCreateSucceeds(store: Store, user: Id, p: TimeOffPayload, now: Millis, freshId: Id)
    requires freshId !in store
    requires ValidateTimeOff(p) == []
    requires p.fromDate.value <= p.toDate.value
    requires !Conflicts(store, user, p.fromDate.value, p.toDate.value)
    ensures var r := Create(store, user, SanitizeTimeOff(p), [], now, freshId);
      && r.Ok? && r.value[freshId].status == Pending
      && r.value[freshId].daysRequested == DaysRequested(p.fromDate.value, p.toDate.value)
  {
    TrimIdempotent(Trim(p.reason));
  }

  /** A validated request whose `toDate` precedes its `fromDate` reaches the schema and fails there with 500. */
  lemma ReversedPeriodIsServerError(store: Store, user: Id, p: TimeOffPayload, now: Millis, freshId: Id)
    requires freshId !in store
    requires ValidateTimeOff(p) == []
    requires p.toDate.value < p.fromDate.value
    requires !Conflicts(store, user, p.fromDate.value, p.toDate.value)
    ensures Create(store, user, SanitizeTimeOff(p), [], now, freshId) == Err(ServerError)
  {
  }

  /** Only Pending and Approved requests of the same employee can block a new request. */
  lemma OnlyOwnActiveRequestsBlock(store: Store, user: Id, fromDate: Millis, toDate: Millis)
    requires forall id :: id in store ==> store[id].employee != user || store[id].status == Rejected
    ensures !Conflicts(store, user, fromDate, toDate)
  {
  }

  /**
   * Periods that share an end instant conflict; a period that starts after
   * the user's only active request ends, the next day say, does not.
   */
  lemma AdjacentPeriods(store: Store, user: Id, k: Id, fromDate: Millis, toDate: Millis)
    requires k in store && store[k].employee == user && Active(store[k])
    requires store[k].fromDate <= store[k].toDate
    ensures fromDate == store[k].toDate && fromDate <= toDate ==> Conflicts(store, user, fromDate, toDate)
    ensures (fromDate > store[k].toDate && forall j :: j in store && j != k && store[j].employee == user ==> !Active(store[j]))
      ==> !Conflicts(store, user, fromDate, toDate)
  {
  }

  /** A decided request is final: it can be reviewed no more. */
  lemma DecisionsAreFinal(store: Store, reviewer: Id, id: Id, p: ReviewPayload, errors: seq<Violation>, now: Millis)
    requires id in store && store[id].status != Pending
    ensures Review(store, reviewer, id, p, errors, now).Err?
  {
  }
}

=== FILE: timeoff_schema.dfy ===
/**
 * The time-off request document of `models/TimeOffRequest.js`: its field
 * constraints, and `save`, which runs the pre-save hook (computing
 * `daysRequested`) and then the schema validators.
 */
module TimeOffSchema {
  import opened Wrappers
  import opened Domain
  import opened Dates

  /** The status enum; a new request starts as `Pending` by default. */
  datatype Status = Pending | Approved | Rejected

  function StatusName(s: Status): string {
    match s
    case Pending => "Pending"
    case Approved => "Approved"
    case Rejected => "Rejected"
  }

  /** `createdAt` is the schema's creation timestamp, used to order listings. */
  datatype TimeOffRequest = TimeOffRequest(
    employee: Id,
    fromDate: Millis,
    toDate: Millis,
    reason: string,
    status: Status,
    reviewedAt: Option<Millis>,
    reviewedBy: Option<Id>,
    rejectionReason: Option<string>,
    daysRequested: int,
    createdAt: Millis)

  /** What `save` validates: the period is in order, the reason is present and short enough, and so is a rejection reason. */
  predicate SchemaValid(r: TimeOffRequest) {
    && r.toDate >= r.fromDate
    && r.reason != [] && |r.reason| <= 1000
    && (r.rejectionReason.Some? ==> |r.rejectionReason.value| <= 500)
  }

  /**
   * `save`: the pre-save hook sets `daysRequested` from the two dates, then the
   * schema validators run; a failure is an exception, answered with 500.
   */
  function Save(r: TimeOffRequest): (s: Result<TimeOffRequest, ApiError>)
    ensures s.Ok? <==> SchemaValid(r)
    ensures s.Err? ==> s.error == ServerError
    ensures s.Ok? ==> s.value.daysRequested >= 1
    ensures s.Ok? ==> s.value == r.(daysRequested := DaysRequested(r.fromDate, r.toDate))
  {
    var hooked := r.(daysRequested := DaysRequested(r.fromDate, r.toDate));
    if SchemaValid(hooked) then Ok(hooked) else Err(ServerError)
  }

  /**
   * `save` in the order Mongoose runs it: the schema validators first, the
   * pre-save hook after them. `daysSet` says whether the document already
   * holds a `daysRequested`; on a new document it does not, and the
   * `required` check of that path fails before the hook could set it.
   */
  function SaveValidatingFirst(r: TimeOffRequest, daysSet: bool): (s: Result<TimeOffRequest, ApiError>)
    ensures !daysSet ==> s == Err(ServerError)
    ensures daysSet ==> s == Save(r)
  {
    if !daysSet || !SchemaValid(r) then Err(ServerError)
    else Ok(r.(daysRequested := DaysRequested(r.fromDate, r.toDate)))
  }
}

=== FILE: timesheet_controller.dfy ===
/**
 * `controllers/timesheetController.js` over a timesheet collection held as a
 * map from document id to document. Each handler takes what Express hands it
 * as parameters: the signed-in user, the (sanitized) body, the validation
 * result, the current time and, for inserts, the id the database assigns.
 */
module TimesheetController {
  import opened Wrappers
  import opened Text
  import opened Domain
  import opened Dates
  import opened Payloads
  import opened Validation
  import opened TimesheetSchema
  import opened Listing

  type Store = map<Id, Timesheet>

  /** The unique index on (employee, weekStartDate). */
  predicate UniqueWeeks(store: Store) {
    forall a, b ::
      (a in store && b in store && store[a].employee == store[b].employee
       && store[a].weekStartDate == store[b].weekStartDate) ==> a == b
  }

  /** What every stored timesheet satisfies once written through the handlers below. */
  predicate SheetInvariant(t: Timesheet) {
    && t.weekEndDate == t.weekStartDate + 6 * DayMs
    && t.totalHours == TotalHours(t.entries)
    && SchemaValid(t)
    && (t.status != Draft ==> t.submittedAt.Some? && t.entries != [])
    && (t.status == Approved || t.status == Rejected ==> t.reviewedAt.Some? && t.reviewedBy.Some?)
  }

  predicate Invariant(store: Store) {
    UniqueWeeks(store) && forall id :: id in store ==> SheetInvariant(store[id])
  }

  predicate IsWeek(t: Timesheet, employee: Id, start: Millis, end: Millis) {
    t.employee == employee && t.weekStartDate == start && t.weekEndDate == end
  }

  /** `Timesheet.findOne({ employee, weekStartDate, weekEndDate })`. */
  function FindWeek(store: Store, employee: Id, start: Millis, end: Millis): (r: Option<Id>)
    requires UniqueWeeks(store)
    ensures r.Some? ==> r.value in store && IsWeek(store[r.value], employee, start, end)
    ensures r.None? ==> forall id :: id in store ==> !IsWeek(store[id], employee, start, end)
  {
    if exists id :: id in store && IsWeek(store[id], employee, start, end) then
      var id :| id in store && IsWeek(store[id], employee, start, end);
      Some(id)
    else
      None
  }

  /** A successful upsert: the new collection, the id written, and whether it was inserted (201) or updated (200). */
  datatype Upserted = Upserted(store: Store, id: Id, created: bool)

  /** A timesheet of `user` starting at `start` whose end date is not the one this upsert computes. */
  predicate Clash(store: Store, user: Id, start: Millis) {
    exists id :: id in store && store[id].employee == user && store[id].weekStartDate == start
      && store[id].weekEndDate != start + 6 * DayMs
  }

  /**
   * `createOrUpdateTimesheet`: a failed validation is answered with the
   * violations; a missing date or entry list, or an entry that does not
   * cast, is an exception answered with 500; otherwise the week is upserted.
   */
  function CreateOrUpdate(store: Store, user: Id, p: TimesheetPayload, errors: seq<Violation>, freshId: Id)
    : (r: Result<Upserted, ApiError>)
    requires UniqueWeeks(store) && freshId !in store
    ensures errors != [] ==> r == Err(ValidationFailed(errors))
    ensures r.Err? && errors == [] ==> r.error == ServerError
    ensures r.Ok? ==> p.weekStartDate.Some? && p.entries.Some? && CastEntries(p.entries.value).Some?
    ensures r.Ok? ==> r == UpsertWeek(store, user, p.weekStartDate.value, CastEntries(p.entries.value).value, freshId)
  {
    if errors != [] then Err(ValidationFailed(errors))
    else if p.weekStartDate.None? || p.entries.None? then Err(ServerError)
    else
      match CastEntries(p.entries.value)
      case None => Err(ServerError)
      case Some(es) => UpsertWeek(store, user, p.weekStartDate.value, es, freshId)
  }

  /**
   * The upsert proper: the week is the seven days from `weekStart`; an
   * existing timesheet of the user for that week gets the entries and goes
   * back to Draft (whatever its status), otherwise a new Draft timesheet is
   * inserted. It fails, with 500, exactly when an entry breaks the schema or
   * the insert would clash with the unique index.
   */
  function UpsertWeek(store: Store, user: Id, weekStart: Millis, es: seq<Entry>, freshId: Id)
    : (r: Result<Upserted, ApiError>)
    requires UniqueWeeks(store) && freshId !in store
    ensures r.Ok? <==> EntriesValid(es) && !Clash(store, user, weekStart)
    ensures r.Err? ==> r.error == ServerError
    ensures r.Ok? ==> r.value.store.Keys == store.Keys + {r.value.id}
    ensures r.Ok? ==> (r.value.created <==> r.value.id !in store)
    ensures r.Ok? ==> forall id :: id in store && id != r.value.id ==> r.value.store[id] == store[id]
    ensures r.Ok? ==>
      var t := r.value.store[r.value.id];
      && t.employee == user && t.status == Draft && t.entries == es
      && t.weekStartDate == weekStart && t.weekEndDate == weekStart + 6 * DayMs
      && t.totalHours == TotalHours(es)
    ensures r.Ok? && r.value.created ==>
      && r.value.id == freshId
      && (forall id :: id in store ==> !(store[id].employee == user && store[id].weekStartDate == weekStart))
      && var t := r.value.store[freshId];
         t.submittedAt.None? && t.reviewedAt.None? && t.reviewedBy.None? && t.rejectionReason.None?
    ensures r.Ok? && !r.value.created ==>
      && IsWeek(store[r.value.id], user, weekStart, weekStart + 6 * DayMs)
      && r.value.store[r.value.id] == store[r.value.id].(entries := es, status := Draft, totalHours := TotalHours(es))
  {
    var (start, end) := WeekDates(weekStart);
    match FindWeek(store, user, start, end)
    case Some(id) =>
      (match Save(store[id].(entries := es, status := Draft))
       case Err(e) => Err(e)
       case Ok(t) => Ok(Upserted(store[id := t], id, false)))
    case None =>
      if exists id :: id in store && store[id].employee == user && store[id].weekStartDate == start then
        Err(ServerError)
      else
        match Save(Timesheet(user, start, end, es, Draft, 0.0, None, None, None, None))
        case Err(e) => Err(e)
        case Ok(t) => Ok(Upserted(store[freshId := t], freshId, true))
  }

  /** `submitTimesheet`: only the owner, only a Draft, only with entries; it stamps `submittedAt`. */
  function Submit(store: Store, user: Id, id: Id, now: Millis): (r: Result<Store, ApiError>)
    ensures id !in store ==> r == Err(TimesheetNotFound)
    ensures id in store && store[id].employee != user ==> r == Err(AccessDenied)
    ensures id in store && store[id].employee == user && store[id].status != Draft ==> r == Err(OnlyDraftSubmittable)
    ensures id in store && store[id].employee == user && store[id].status == Draft && store[id].entries == []
      ==> r == Err(EmptyTimesheet)
    ensures id in store && store[id].employee == user && store[id].status == Draft && store[id].entries != []
      ==> (r.Ok? <==> SchemaValid(store[id])) && (r.Err? ==> r == Err(ServerError))
    ensures r == Err(ServerError) <==>
      id in store && store[id].employee == user && store[id].status == Draft && store[id].entries != [] && !SchemaValid(store[id])
    ensures r.Ok? ==> id in store && store[id].status == Draft && store[id].employee == user
    ensures r.Ok? ==> r.value.Keys == store.Keys && forall k :: k in store && k != id ==> r.value[k] == store[k]
    ensures r.Ok? ==> r.value[id].status == Submitted && r.value[id].submittedAt == Some(now)
    ensures r.Ok? ==> r.value[id].entries == store[id].entries && r.value[id].weekStartDate == store[id].weekStartDate
    ensures r.Ok? ==> r.value[id].reviewedAt == store[id].reviewedAt && r.value[id].reviewedBy == store[id].reviewedBy
    ensures r.Ok? ==>
      r.value[id] == store[id].(status := Submitted, submittedAt := Some(now), totalHours := TotalHours(store[id].entries))
  {
    if id !in store then Err(TimesheetNotFound)
    else
      var t := store[id];
      if t.employee != user then Err(AccessDenied)
      else if t.status != Draft then Err(OnlyDraftSubmittable)
      else if t.entries == [] then Err(EmptyTimesheet)
      else
        match Save(t.(status := Submitted, submittedAt := Some(now)))
        case Err(e) => Err(e)
        case Ok(s) => Ok(store[id := s])
  }

  /**
   * `approveOrRejectTimesheet`: only a Submitted timesheet; `approve` and
   * `reject` set the status, `reject` also the rejection reason, and both
   * record the reviewer and the time. Any other action is refused.
   */
  function Review(store: Store, reviewer: Id, id: Id, p: ReviewPayload, errors: seq<Violation>, now: Millis)
    : (r: Result<Store, ApiError>)
    ensures errors != [] ==> r == Err(ValidationFailed(errors))
    ensures errors == [] && id !in store ==> r == Err(TimesheetNotFound)
    ensures errors == [] && id in store && store[id].status != Submitted ==> r == Err(OnlySubmittedReviewable)
    ensures errors == [] && id in store && store[id].status == Submitted && p.action != "approve" && p.action != "reject"
      ==> r == Err(InvalidAction)
    ensures errors == [] && id in store && store[id].status == Submitted && (p.action == "approve" || p.action == "reject")
      ==> (r.Ok? <==> SchemaValid(store[id])) && (r.Err? ==> r == Err(ServerError))
    ensures r == Err(ServerError) ==> id in store && !SchemaValid(store[id])
    ensures r.Ok? ==> id in store && store[id].status == Submitted
    ensures r.Ok? ==> r.value.Keys == store.Keys && forall k :: k in store && k != id ==> r.value[k] == store[k]
    ensures r.Ok? ==> r.value[id].status == (if p.action == "approve" then Approved else Rejected)
    ensures r.Ok? ==> r.value[id].reviewedAt == Some(now) && r.value[id].reviewedBy == Some(reviewer)
    ensures r.Ok? ==>
      r.value[id].rejectionReason == (if p.action == "reject" then TrimOptional(p.rejectionReason) else store[id].rejectionReason)
    ensures r.Ok? ==> r.value[id].entries == store[id].entries && r.value[id].submittedAt == store[id].submittedAt
    ensures r.Ok? ==> r.value[id] == store[id].(
      status := if p.action == "approve" then Approved else Rejected,
      rejectionReason := if p.action == "reject" then TrimOptional(p.rejectionReason) else store[id].rejectionReason,
      reviewedAt := Some(now), reviewedBy := Some(reviewer), totalHours := TotalHours(store[id].entries))
  {
    if errors != [] then Err(ValidationFailed(errors))
    else if id !in store then Err(TimesheetNotFound)
    else
      var t := store[id];
      if t.status != Submitted then Err(OnlySubmittedReviewable)
      else if p.action != "approve" && p.action != "reject" then Err(InvalidAction)
      else
        var decided :=
          if p.action == "approve" then t.(status := Approved)
          else t.(status := Rejected, rejectionReason := TrimOptional(p.rejectionReason));
        match Save(decided.(reviewedAt := Some(now), reviewedBy := Some(reviewer)))
        case Err(e) => Err(e)
        case Ok(s) => Ok(store[id := s])
  }

  /** `getTimesheetById`: a manager may read any timesheet, an employee only their own. */
  function GetById(store: Store, principal: User, id: Id): (r: Result<Timesheet, ApiError>)
    ensures r.Ok? <==> id in store && (principal.role == Manager || store[id].employee == principal.id)
    ensures r.Ok? ==> r.value == store[id]
    ensures id !in store ==> r == Err(TimesheetNotFound)
    ensures id in store && !r.Ok? ==> r == Err(AccessDenied)
  {
    if id !in store then Err(TimesheetNotFound)
    else if principal.role == Employee && store[id].employee != principal.id then Err(AccessDenied)
    else
      assert principal.role == Manager || store[id].employee == principal.id;
      Ok(store[id])
  }

  /** The `status` query filter: no filter, or the status whose name it is (a name of no status matches nothing). */
  predicate StatusMatches(t: Timesheet, filter: Option<string>) {
    filter.None? || StatusName(t.status) == filter.value
  }

  predicate MineSelects(store: Store, user: Id, filter: Option<string>, id: Id) {
    id in store && store[id].employee == user && StatusMatches(store[id], filter)
  }

  predicate PendingSelects(store: Store, id: Id) {
    id in store && store[id].status == Submitted
  }

  function WeekStartKey(store: Store, id: Id): Option<int> {
    if id in store then Some(store[id].weekStartDate) else None
  }

  function SubmittedAtKey(store: Store, id: Id): Option<int> {
    if id in store then store[id].submittedAt else None
  }

  /** The selection `getMyTimesheets` makes, as a predicate over ids. */
  function MineKeep(store: Store, user: Id, filter: Option<string>): Id -> bool {
    id => MineSelects(store, user, filter, id)
  }

  function PendingKeep(store: Store): Id -> bool {
    id => PendingSelects(store, id)
  }

  function WeekStartKeyOf(store: Store): Id -> Option<int> {
    id => WeekStartKey(store, id)
  }

  function SubmittedAtKeyOf(store: Store): Id -> Option<int> {
    id => SubmittedAtKey(store, id)
  }

  lemma MineSelection(store: Store, order: seq<Id>, user: Id, q: PageQuery)
    requires Enumerates(order, store)
    ensures var r := ListPage(store, order, MineKeep(store, user, q.StatusFilter()), WeekStartKeyOf(store), true, q);
      r.Ok? ==> (forall i :: 0 <= i < |r.value.items| ==> MineSelects(store, user, q.StatusFilter(), r.value.items[i])) && r.value.total == |set id | id in store && MineSelects(store, user, q.StatusFilter(), id)|
  {
    var keep := MineKeep(store, user, q.StatusFilter());
    assert (set id | id in store && keep(id)) == (set id | id in store && MineSelects(store, user, q.StatusFilter(), id));
  }

  lemma MineOrder(store: Store, order: seq<Id>, user: Id, q: PageQuery)
    requires Enumerates(order, store)
    ensures var r := ListPage(store, order, MineKeep(store, user, q.StatusFilter()), WeekStartKeyOf(store), true, q);
      r.Ok? ==> forall i, j :: 0 <= i < j < |r.value.items| ==>
        KeyLe(WeekStartKey(store, r.value.items[j]), WeekStartKey(store, r.value.items[i]))
  {
    var key := WeekStartKeyOf(store);
    var r := ListPage(store, order, MineKeep(store, user, q.StatusFilter()), key, true, q);
    assert r.Ok? ==> forall i, j :: 0 <= i < j < |r.value.items| ==> InOrder(key(r.value.items[i]), key(r.value.items[j]), true);
  }

  lemma PendingSelection(store: Store, order: seq<Id>, q: PageQuery)
    requires Enumerates(order, store)
    ensures var r := ListPage(store, order, PendingKeep(store), SubmittedAtKeyOf(store), false, q);
      r.Ok? ==> (forall i :: 0 <= i < |r.value.items| ==> PendingSelects(store, r.value.items[i])) && r.value.total == |set id | id in store && PendingSelects(store, id)|
  {
    var keep := PendingKeep(store);
    assert (set id | id in store && keep(id)) == (set id | id in store && PendingSelects(store, id));
  }

  lemma PendingOrder(store: Store, order: seq<Id>, q: PageQuery)
    requires Enumerates(order, store)
    ensures var r := ListPage(store, order, PendingKeep(store), SubmittedAtKeyOf(store), false, q);
      r.Ok? ==> forall i, j :: 0 <= i < j < |r.value.items| ==>
        KeyLe(SubmittedAtKey(store, r.value.items[i]), SubmittedAtKey(store, r.value.items[j]))
  {
    var key := SubmittedAtKeyOf(store);
    var r := ListPage(store, order, PendingKeep(store), key, false, q);
    assert r.Ok? ==> forall i, j :: 0 <= i < j < |r.value.items| ==> InOrder(key(r.value.items[i]), key(r.value.items[j]), false);
  }

  /** `getMyTimesheets`: the user's timesheets, optionally of one status, latest week first, one page. */
  function ListMine(store: Store, order: seq<Id>, user: Id, q: PageQuery): (r: Result<Page, ApiError>)
    requires Enumerates(order, store)
    ensures r.Err? <==> (q.Page() - 1) * q.Limit() < 0
    ensures r.Ok? ==> forall i :: 0 <= i < |r.value.items| ==> MineSelects(store, user, q.StatusFilter(), r.value.items[i])
    ensures r.Ok? ==> Distinct(r.value.items)
    ensures r.Ok? ==> forall i, j :: 0 <= i < j < |r.value.items| ==>
      KeyLe(WeekStartKey(store, r.value.items[j]), WeekStartKey(store, r.value.items[i]))
    ensures r.Ok? ==> r.value.total == |set id | id in store && MineSelects(store, user, q.StatusFilter(), id)|
    ensures r.Ok? ==> exists s :: Arrangement(s, store, MineKeep(store, user, q.StatusFilter()), WeekStartKeyOf(store), true) && |s| == r.value.total && Window(s, q.Page(), q.Limit()) == Ok(r.value.items)
    ensures r.Ok? ==> r.value.totalPages == TotalPages(r.value.total, q.Limit()) && r.value.currentPage == q.Page()
  {
    MineSelection(store, order, user, q);
    MineOrder(store, order, user, q);
    ListPage(store, order, MineKeep(store, user, q.StatusFilter()), WeekStartKeyOf(store), true, q)
  }

  /** `getPendingTimesheets`: every Submitted timesheet, earliest submission first, one page. */
  function ListPending(store: Store, order: seq<Id>, q: PageQuery): (r: Result<Page, ApiError>)
    requires Enumerates(order, store)
    ensures r.Err? <==> (q.Page() - 1) * q.Limit() < 0
    ensures r.Ok? ==> forall i :: 0 <= i < |r.value.items| ==> PendingSelects(store, r.value.items[i])
    ensures r.Ok? ==> Distinct(r.value.items)
    ensures r.Ok? ==> forall i, j :: 0 <= i < j < |r.value.items| ==>
      KeyLe(SubmittedAtKey(store, r.value.items[i]), SubmittedAtKey(store, r.value.items[j]))
    ensures r.Ok? ==> r.value.total == |set id | id in store && PendingSelects(store, id)|
    ensures r.Ok? ==> exists s :: Arrangement(s, store, PendingKeep(store), SubmittedAtKeyOf(store), false) && |s| == r.value.total && Window(s, q.Page(), q.Limit()) == Ok(r.value.items)
    ensures r.Ok? ==> r.value.totalPages == TotalPages(r.value.total, q.Limit()) && r.value.currentPage == q.Page()
  {
    PendingSelection(store, order, q);
    PendingOrder(store, order, q);
    ListPage(store, order, PendingKeep(store), SubmittedAtKeyOf(store), false, q)
  }

  // ---- properties relating the validator, the schema and the handlers ----

  /**
   * Entries the timesheet validator accepts always cast and always pass the
   * entry schema, once sanitized: the trim setters re-trim an already trimmed
   * project, and trimming never lengthens a description.
   */
  lemma ValidatedEntriesSave(p: TimesheetPayload)
    requires ValidateTimesheet(p) == []
    ensures SanitizeTimesheet(p).entries.Some?
    ensures var es := CastEntries(SanitizeTimesheet(p).entries.value);
      es.Some? && |es.value| == |p.entries.value| >= 1 && EntriesValid(es.value)
  {
    var ps := SanitizeTimesheet(p).entries.value;
    forall i | 0 <= i < |ps| ensures CastEntry(ps[i]).Some? && EntryValid(CastEntry(ps[i]).value) {
      var raw := p.entries.value[i];
      assert WellFormedEntry(raw);
      TrimIdempotent(Trim(raw.project));
      assert ps[i].project == Trim(raw.project);
    }
  }

  /** Under the invariant every stored week ends six days after it starts, so no upsert clashes. */
  lemma NoClashUnderInvariant(store: Store, user: Id, start: Millis)
    requires Invariant(store)
    ensures !Clash(store, user, start)
  {
  }

  /** A validated upsert always succeeds: it never fails with 500 on a collection that keeps the invariant. */
  lemma RoutedUpsertSucceeds(store: Store, user: Id, p: TimesheetPayload, freshId: Id)
    requires Invariant(store) && freshId !in store
    requires ValidateTimesheet(p) == []
    ensures CreateOrUpdate(store, user, SanitizeTimesheet(p), [], freshId).Ok?
  {
    ValidatedEntriesSave(p);
    NoClashUnderInvariant(store, user, p.weekStartDate.value);
  }

  lemma UpsertPreservesInvariant(store: Store, user: Id, weekStart: Millis, es: seq<Entry>, freshId: Id)
    requires Invariant(store) && freshId !in store
    requires UpsertWeek(store, user, weekStart, es, freshId).Ok?
    ensures Invariant(UpsertWeek(store, user, weekStart, es, freshId).value.store)
  {
    var u := UpsertWeek(store, user, weekStart, es, freshId).value;
    assert SheetInvariant(u.store[u.id]);
    if !u.created {
      assert forall k :: k in store && k != u.id ==> !(store[k].employee == user && store[k].weekStartDate == weekStart);
    }
    PutKeepsWeeksUnique(store, u.store, u.id);
  }

  /** Writing one timesheet whose week no other stored timesheet of its employee holds keeps weeks unique. */
  lemma PutKeepsWeeksUnique(store: Store, s: Store, id: Id)
    requires UniqueWeeks(store)
    requires s.Keys == store.Keys + {id}
    requires forall k :: k in store && k != id ==> s[k] == store[k]
    requires forall k :: k in store && k != id ==> !(store[k].employee == s[id].employee && store[k].weekStartDate == s[id].weekStartDate)
    ensures UniqueWeeks(s)
  {
    forall a, b | a in s && b in s && s[a].employee == s[b].employee && s[a].weekStartDate == s[b].weekStartDate
      ensures a == b
    {
      if a != id && b != id {
        assert s[a] == store[a] && s[b] == store[b];
      }
    }
  }

  lemma SubmitPreservesInvariant(store: Store, user: Id, id: Id, now: Millis)
    requires Invariant(store)
    ensures Submit(store, user, id, now) != Err(ServerError)
    ensures Submit(store, user, id, now).Ok? ==> Invariant(Submit(store, user, id, now).value)
  {
    if Submit(store, user, id, now).Ok? {
      var s := Submit(store, user, id, now).value;
      assert SheetInvariant(s[id]);
      assert forall k :: k in s ==> s[k].employee == store[k].employee && s[k].weekStartDate == store[k].weekStartDate;
    }
  }

  lemma ReviewPreservesInvariant(store: Store, reviewer: Id, id: Id, p: ReviewPayload, errors: seq<Violation>, now: Millis)
    requires Invariant(store)
    ensures Review(store, reviewer, id, p, errors, now) != Err(ServerError)
    ensures Review(store, reviewer, id, p, errors, now).Ok? ==> Invariant(Review(store, reviewer, id, p, errors, now).value)
  {
    if Review(store, reviewer, id, p, errors, now).Ok? {
      var s := Review(store, reviewer, id, p, errors, now).value;
      assert SheetInvariant(store[id]);
      assert SheetInvariant(s[id]);
      assert forall k :: k in s ==> s[k].employee == store[k].employee && s[k].weekStartDate == store[k].weekStartDate;
    }
  }

  /** A review that passed `validateReview` never reaches the "Invalid action" branch. */
  lemma RoutedReviewHasAction(store: Store, reviewer: Id, id: Id, p: ReviewPayload, now: Millis)
    requires ValidateReview(p) == []
    ensures Review(store, reviewer, id, SanitizeReview(p), [], now) != Err(InvalidAction)
  {
  }

  /** On a consistent store, the owner's non-empty Draft is submitted. */
  lemma SubmitSucceeds(store: Store, user: Id, id: Id, now: Millis)
    requires Invariant(store)
    requires id in store && store[id].employee == user && store[id].status == Draft && store[id].entries != []
    ensures Submit(store, user, id, now).Ok?
    ensures Submit(store, user, id, now).value[id].status == Submitted
  {
    SubmitPreservesInvariant(store, user, id, now);
  }

  /** On a consistent store, a validated decision on a Submitted timesheet is recorded. */
  lemma ReviewSucceeds(store: Store, reviewer: Id, id: Id, p: ReviewPayload, now: Millis)
    requires Invariant(store) && ValidateReview(p) == []
    requires id in store && store[id].status == Submitted
    ensures Review(store, reviewer, id, SanitizeReview(p), [], now).Ok?
    ensures Review(store, reviewer, id, SanitizeReview(p), [], now).value[id].status
      == if p.action == "approve" then Approved else Rejected
  {
    ReviewPreservesInvariant(store, reviewer, id, SanitizeReview(p), [], now);
  }

  /** Submission and review never change an Approved or Rejected timesheet. */
  lemma DecisionsHoldAgainstSubmitAndReview(store: Store, user: Id, id: Id, p: ReviewPayload, errors: seq<Violation>, now: Millis)
    requires id in store && (store[id].status == Approved || store[id].status == Rejected)
    ensures Submit(store, user, id, now).Err?
    ensures Review(store, user, id, p, errors, now).Err?
  {
  }

  /**
   * The upsert, though, reopens a decided timesheet: posting the same week
   * again turns an Approved timesheet back into a Draft, keeping its review stamps.
   */
  lemma UpsertReopensApproved(store: Store, id: Id, p: TimesheetPayload, freshId: Id)
    requires Invariant(store) && freshId !in store && id in store
    requires store[id].status == Approved
    requires ValidateTimesheet(p) == [] && p.weekStartDate == Some(store[id].weekStartDate)
    ensures var r := CreateOrUpdate(store, store[id].employee, SanitizeTimesheet(p), [], freshId);
      && r.Ok? && r.value.id == id && !r.value.created
      && r.value.store[id].status == Draft
      && r.value.store[id].reviewedAt == store[id].reviewedAt && r.value.store[id].reviewedBy == store[id].reviewedBy
      && r.value.store[id].rejectionReason == store[id].rejectionReason
      && r.value.store[id].submittedAt == store[id].submittedAt
  {
    var t := store[id];
    RoutedUpsertSucceeds(store, t.employee, p, freshId);
    var q := SanitizeTimesheet(p);
    var es := CastEntries(q.entries.value).value;
    var u := UpsertWeek(store, t.employee, t.weekStartDate, es, freshId).value;
    assert u.id == id;
  }

  // ---- a worked example ----
  // A first timesheet for the week of Monday 2024-01-01 with Monday 8 hours
  // on ProjA and Tuesday 6 hours on ProjB: a new Draft of 14 hours whose
  // week ends six days after it starts.

  /** Monday 2024-01-01, 00:00 UTC. */
  const ExampleWeek: Millis := 1_704_067_200_000
  const ExampleMonday := EntryPayload("Monday", Some(8.0), "ProjA", None)
  const ExampleTuesday := EntryPayload("Tuesday", Some(6.0), "ProjB", None)
  const ExamplePayload := TimesheetPayload(Some(ExampleWeek), Some([ExampleMonday, ExampleTuesday]))

  lemma ExampleProjectsTrimmed()
    ensures Trim("ProjA") == "ProjA" && Trim("ProjB") == "ProjB"
    ensures !AllSpace("ProjA") && !AllSpace("ProjB")
  {
    TrimIdempotent("ProjA");
    TrimIdempotent("ProjB");
    assert !IsSpace("ProjA"[0]) && !IsSpace("ProjB"[0]);
  }

  /** The example body passes validation and the sanitizer leaves it as it is. */
  lemma ExampleValidates()
    ensures ValidateTimesheet(ExamplePayload) == []
    ensures SanitizeTimesheet(ExamplePayload) == ExamplePayload
  {
    ExampleProjectsTrimmed();
    assert WellFormedEntry(ExampleMonday) && WellFormedEntry(ExampleTuesday);
    assert SanitizeTimesheet(ExamplePayload).entries.value == [ExampleMonday, ExampleTuesday];
  }

  /** The example entries cast to Monday 8 hours and Tuesday 6 hours, 14 hours in all. */
  lemma ExampleCasts()
    ensures var es := CastEntries(ExamplePayload.entries.value);
      es.Some? && |es.value| == 2 && es.value[0].day == Monday && es.value[1].day == Tuesday
      && TotalHours(es.value) == 14.0
  {
    var e1, e2 := ExampleMonday, ExampleTuesday;
    ExampleProjectsTrimmed();
    var es := [Entry(Monday, 8.0, "ProjA", None), Entry(Tuesday, 6.0, "ProjB", None)];
    assert DayFromName("Monday") == Some(Monday) && DayFromName("Tuesday") == Some(Tuesday);
    assert CastEntry(e1) == Some(es[0]) && CastEntry(e2) == Some(es[1]);
    var cast := CastEntries([e1, e2]);
    assert cast.Some? && cast.value[0] == es[0] && cast.value[1] == es[1];
    assert cast.value == es;
    assert TotalHours(es) == 14.0 by {
      assert es[..1] == [es[0]] && es[..1][..0] == [];
    }
  }

  /**
   * Posting the example through the route to an empty collection creates a
   * Draft of 14 hours whose week ends six days after Monday 2024-01-01.
   */
  lemma ExampleCreatesDraft(user: Id, freshId: Id)
    ensures var r := CreateOrUpdate(map[], user, SanitizeTimesheet(ExamplePayload), ValidateTimesheet(ExamplePayload), freshId);
      && r.Ok? && r.value.created && r.value.id == freshId
      && r.value.store[freshId].status == Draft
      && r.value.store[freshId].totalHours == 14.0
      && r.value.store[freshId].weekEndDate == ExampleWeek + 6 * DayMs
  {
    ExampleValidates();
    ExampleCasts();
    RoutedUpsertSucceeds(map[], user, ExamplePayload, freshId);
  }
}

=== FILE: timesheet_schema.dfy ===
/**
 * The timesheet document of `models/Timesheet.js`: its entry and status
 * constraints, the casting of request entries into entries, and `save`,
 * which runs the pre-save hook (recomputing `totalHours`) and then the
 * schema validators.
 */
module TimesheetSchema {
  import opened Wrappers
  import opened Text
  import opened Domain
  import opened Dates
  import opened Payloads

  datatype Entry = Entry(day: Day, hours: real, project: string, description: Option<string>)

  /** The status enum; a new document starts as `Draft` by default. */
  datatype Status = Draft | Submitted | Approved | Rejected

  function StatusName(s: Status): string {
    match s
    case Draft => "Draft"
    case Submitted => "Submitted"
    case Approved => "Approved"
    case Rejected => "Rejected"
  }

  datatype Timesheet = Timesheet(
    employee: Id,
    weekStartDate: Millis,
    weekEndDate: Millis,
    entries: seq<Entry>,
    status: Status,
    totalHours: real,
    submittedAt: Option<Millis>,
    reviewedAt: Option<Millis>,
    reviewedBy: Option<Id>,
    rejectionReason: Option<string>)

  /** The sum of the entries' hours, added left to right as `reduce` does; 0 for no entries. */
  function TotalHours(es: seq<Entry>): real
    decreases |es|
  {
    if es == [] then 0.0 else TotalHours(es[..|es| - 1]) + es[|es| - 1].hours
  }

  lemma {:induction false} TotalHoursAppend(a: seq<Entry>, b: seq<Entry>)
    ensures TotalHours(a + b) == TotalHours(a) + TotalHours(b)
    decreases |b|
  {
    if b == [] {
      assert a + b == a;
    } else {
      var b' := b[..|b| - 1];
      assert (a + b)[..|a + b| - 1] == a + b';
      TotalHoursAppend(a, b');
    }
  }

  /** Entries within the schema's hour bounds total between 0 and 24 hours per entry. */
  lemma {:induction false} TotalHoursBounds(es: seq<Entry>)
    requires forall i :: 0 <= i < |es| ==> 0.0 <= es[i].hours <= 24.0
    ensures 0.0 <= TotalHours(es) <= 24.0 * |es| as real
    decreases |es|
  {
    if es != [] {
      TotalHoursBounds(es[..|es| - 1]);
    }
  }

  /** An entry as the schema validators accept it. */
  predicate EntryValid(e: Entry) {
    && 0.0 <= e.hours <= 24.0
    && e.project != []
    && (e.description.Some? ==> |e.description.value| <= 500)
  }

  predicate EntriesValid(es: seq<Entry>) {
    forall i :: 0 <= i < |es| ==> EntryValid(es[i])
  }

  /** What `save` validates: every entry; the other paths cannot fail once cast. */
  predicate SchemaValid(t: Timesheet) {
    EntriesValid(t.entries)
  }

  /**
   * Assigning a request entry to a document: the day is cast to the enum, the
   * hours must be a number, and the `trim` setters trim the project and the
   * description. None when a cast fails, which surfaces as a failed save.
   */
  function CastEntry(p: EntryPayload): (r: Option<Entry>)
    ensures r.Some? <==> DayFromName(p.day).Some? && p.hours.Some?
    ensures r.Some? ==>
      && DayName(r.value.day) == p.day
      && r.value.hours == p.hours.value
      && r.value.project == Trim(p.project)
      && (r.value.description.Some? <==> p.description.Some?)
      && (r.value.description.Some? ==> r.value.description.value == Trim(p.description.value))
  {
    match (DayFromName(p.day), p.hours)
    case (Some(d), Some(h)) =>
      Some(Entry(d, h, Trim(p.project), if p.description.Some? then Some(Trim(p.description.value)) else None))
    case _ => None
  }

  /** Assigning the whole `entries` array: every entry is cast, and one failed cast fails them all. */
  function CastEntries(ps: seq<EntryPayload>): (r: Option<seq<Entry>>)
    ensures r.Some? <==> forall i :: 0 <= i < |ps| ==> CastEntry(ps[i]).Some?
    ensures r.Some? ==> |r.value| == |ps| && forall i :: 0 <= i < |ps| ==> CastEntry(ps[i]) == Some(r.value[i])
  {
    if forall i :: 0 <= i < |ps| ==> CastEntry(ps[i]).Some? then
      Some(seq(|ps|, i requires 0 <= i < |ps| => CastEntry(ps[i]).value))
    else
      None
  }

  /**
   * `save`: the pre-save hook sets `totalHours` to the sum of the entries, then
   * the schema validators run; a failure is an exception, answered with 500.
   */
  function Save(t: Timesheet): (r: Result<Timesheet, ApiError>)
    ensures r.Ok? <==> SchemaValid(t)
    ensures r.Err? ==> r.error == ServerError
    ensures r.Ok? ==> r.value.totalHours == TotalHours(r.value.entries)
    ensures r.Ok? ==> r.value == t.(totalHours := r.value.totalHours)
  {
    var hooked := t.(totalHours := TotalHours(t.entries));
    if SchemaValid(hooked) then Ok(hooked) else Err(ServerError)
  }
}

=== FILE: validation.dfy ===
/**
 * The request validators of `middleware/validation.js`. Every rule is
 * checked and each failing rule contributes its own violation (one per
 * failing entry for the `entries.*` rules); a body is accepted exactly
 * when the list is empty. The `trim()` sanitizers also rewrite the body the
 * controller then reads; `Sanitize*` compute that rewritten body.
 */
module Validation {
  import opened Wrappers
  import opened Text
  import opened Domain
  import opened Payloads

  const DayChoices: seq<string> := ["Monday", "Tuesday", "Wednesday", "Thursday", "Friday", "Saturday", "Sunday"]
  const ActionChoices: seq<string> := ["approve", "reject"]
  const RoleChoices: seq<string> := ["employee", "manager"]

  /** The validator's day list names exactly the values of the entry day enum. */
  lemma DayChoicesAreDays(s: string)
    ensures s in DayChoices <==> DayFromName(s).Some?
  {
  }

  /** The violation of one top-level rule, if it fails. */
  function Check(ok: bool, rule: Rule): (r: seq<Violation>)
    ensures r == [] <==> ok
    ensures !ok ==> r == [BodyViolation(rule)]
  {
    if ok then [] else [BodyViolation(rule)]
  }

  /** A wildcard rule `entries.*.field`: one violation per entry, in order, that `bad` flags. */
  function EntryRule(es: seq<EntryPayload>, bad: EntryPayload -> bool, rule: Rule): seq<Violation>
    decreases |es|
  {
    if es == [] then []
    else
      var last := |es| - 1;
      EntryRule(es[..last], bad, rule) + (if bad(es[last]) then [EntryViolation(last, rule)] else [])
  }

  /** A wildcard rule reports exactly the entries `bad` flags, each under its own index and this rule. */
  lemma {:induction false} EntryRuleAt(es: seq<EntryPayload>, bad: EntryPayload -> bool, rule: Rule, v: Violation)
    ensures v in EntryRule(es, bad, rule) <==> v.EntryViolation? && v.rule == rule && v.index < |es| && bad(es[v.index])
    decreases |es|
  {
    if es != [] {
      var last := |es| - 1;
      EntryRuleAt(es[..last], bad, rule, v);
      if v.EntryViolation? && v.index < last {
        assert es[..last][v.index] == es[v.index];
      }
    }
  }

  // ---- validateTimesheet ----

  predicate BadDay(e: EntryPayload) { e.day !in DayChoices }
  predicate BadHours(e: EntryPayload) { e.hours.None? || e.hours.value < 0.0 || e.hours.value > 24.0 }
  predicate BadProject(e: EntryPayload) { AllSpace(e.project) }  // `trim().notEmpty()` fails
  predicate BadDescription(e: EntryPayload) { e.description.Some? && |e.description.value| > 500 }

  /** What the timesheet rules accept of one entry, stated against the entry schema's day enum. */
  predicate WellFormedEntry(e: EntryPayload) {
    && DayFromName(e.day).Some?
    && e.hours.Some? && 0.0 <= e.hours.value <= 24.0
    && !AllSpace(e.project)
    && (e.description.Some? ==> |e.description.value| <= 500)
  }

  predicate WellFormedTimesheet(p: TimesheetPayload) {
    && p.weekStartDate.Some?
    && p.entries.Some? && |p.entries.value| >= 1
    && forall i :: 0 <= i < |p.entries.value| ==> WellFormedEntry(p.entries.value[i])
  }

  /** A wildcard rule reports nothing exactly when no entry is flagged. */
  lemma EntryRuleEmpty(es: seq<EntryPayload>, bad: EntryPayload -> bool, rule: Rule)
    ensures EntryRule(es, bad, rule) == [] <==> forall i :: 0 <= i < |es| ==> !bad(es[i])
  {
    var r := EntryRule(es, bad, rule);
    if r != [] {
      EntryRuleAt(es, bad, rule, r[0]);
    }
    forall i | 0 <= i < |es| && bad(es[i]) ensures r != [] {
      EntryRuleAt(es, bad, rule, EntryViolation(i, rule));
    }
  }

  function ValidateTimesheet(p: TimesheetPayload): (r: seq<Violation>)
    ensures r == [] <==> WellFormedTimesheet(p)
  {
    var es := p.entries.GetOr([]);
    forall e ensures BadDay(e) <==> DayFromName(e.day).None? {
      DayChoicesAreDays(e.day);
    }
    EntryRuleEmpty(es, BadDay, ValidDay);
    EntryRuleEmpty(es, BadHours, HoursInRange);
    EntryRuleEmpty(es, BadProject, ProjectRequired);
    EntryRuleEmpty(es, BadDescription, DescriptionLength);
    Check(p.weekStartDate.Some?, ValidWeekStart)
    + Check(p.entries.Some? && |es| >= 1, AtLeastOneEntry)
    + EntryRule(es, BadDay, ValidDay)
    + EntryRule(es, BadHours, HoursInRange)
    + EntryRule(es, BadProject, ProjectRequired)
    + EntryRule(es, BadDescription, DescriptionLength)
  }

  /**
   * The violations the timesheet rules raise for `p`, rule by rule: a
   * missing week start, a missing or empty entry list, and per entry a day
   * outside the enum, hours missing or outside [0, 24], a blank project, or
   * a description over 500 characters.
   */
  predicate TimesheetReports(p: TimesheetPayload, v: Violation) {
    var es := p.entries.GetOr([]);
    match v
    case BodyViolation(rule) =>
      || (rule == ValidWeekStart && p.weekStartDate.None?)
      || (rule == AtLeastOneEntry && (p.entries.None? || es == []))
    case EntryViolation(i, rule) =>
      && i < |es|
      && (|| (rule == ValidDay && DayFromName(es[i].day).None?)
          || (rule == HoursInRange && (es[i].hours.None? || es[i].hours.value < 0.0 || es[i].hours.value > 24.0))
          || (rule == ProjectRequired && AllSpace(es[i].project))
          || (rule == DescriptionLength && es[i].description.Some? && |es[i].description.value| > 500))
  }

  /** Each timesheet rule reports a violation exactly when it fails, each entry rule once per failing entry. */
  lemma ValidateTimesheetRules(p: TimesheetPayload, v: Violation)
    ensures v in ValidateTimesheet(p) <==> TimesheetReports(p, v)
  {
    var es := p.entries.GetOr([]);
    var top := Check(p.weekStartDate.Some?, ValidWeekStart) + Check(p.entries.Some? && |es| >= 1, AtLeastOneEntry);
    var days := EntryRule(es, BadDay, ValidDay);
    var hours := EntryRule(es, BadHours, HoursInRange);
    var projects := EntryRule(es, BadProject, ProjectRequired);
    var descriptions := EntryRule(es, BadDescription, DescriptionLength);
    assert ValidateTimesheet(p) == top + days + hours + projects + descriptions;
    InFive(v, top, days, hours, projects, descriptions);
    EntryRulesAt(es, v);
    if v.EntryViolation? && v.index < |es| {
      DayChoicesAreDays(es[v.index].day);
    }
    assert v in top <==> v.BodyViolation? && ((v.rule == ValidWeekStart && p.weekStartDate.None?) || (v.rule == AtLeastOneEntry && (p.entries.None? || es == [])));
  }

  /** Where a violation can come from among the four wildcard rules of the timesheet validator. */
  lemma EntryRulesAt(es: seq<EntryPayload>, v: Violation)
    ensures v in EntryRule(es, BadDay, ValidDay) <==> v.EntryViolation? && v.rule == ValidDay && v.index < |es| && BadDay(es[v.index])
    ensures v in EntryRule(es, BadHours, HoursInRange) <==> v.EntryViolation? && v.rule == HoursInRange && v.index < |es| && BadHours(es[v.index])
    ensures v in EntryRule(es, BadProject, ProjectRequired) <==> v.EntryViolation? && v.rule == ProjectRequired && v.index < |es| && BadProject(es[v.index])
    ensures v in EntryRule(es, BadDescription, DescriptionLength) <==> v.EntryViolation? && v.rule == DescriptionLength && v.index < |es| && BadDescription(es[v.index])
  {
    EntryRuleAt(es, BadDay, ValidDay, v);
    EntryRuleAt(es, BadHours, HoursInRange, v);
    EntryRuleAt(es, BadProject, ProjectRequired, v);
    EntryRuleAt(es, BadDescription, DescriptionLength, v);
  }

  lemma InFive<T>(v: T, a: seq<T>, b: seq<T>, c: seq<T>, d: seq<T>, e: seq<T>)
    ensures v in a + b + c + d + e <==> v in a || v in b || v in c || v in d || v in e
  {
  }

  /** The body the timesheet controller reads: each entry's project trimmed by the sanitizer. */
  function SanitizeTimesheet(p: TimesheetPayload): (q: TimesheetPayload)
    ensures q.weekStartDate == p.weekStartDate
    ensures p.entries.Some? <==> q.entries.Some?
    ensures p.entries.Some? ==>
      (|q.entries.value| == |p.entries.value|
       && forall i :: 0 <= i < |p.entries.value| ==>
            q.entries.value[i] == p.entries.value[i].(project := Trim(p.entries.value[i].project)))
  {
    match p.entries
    case None => p
    case Some(es) =>
      p.(entries := Some(seq(|es|, i requires 0 <= i < |es| => es[i].(project := Trim(es[i].project)))))
  }

  // ---- validateTimeOffRequest ----

  predicate WellFormedTimeOff(p: TimeOffPayload) {
    p.fromDate.Some? && p.toDate.Some? && 1 <= |Trim(p.reason)| <= 1000
  }

  /** Note that nothing here compares `toDate` with `fromDate`. */
  function ValidateTimeOff(p: TimeOffPayload): (r: seq<Violation>)
    ensures r == [] <==> WellFormedTimeOff(p)
  {
    Check(p.fromDate.Some?, ValidFromDate)
    + Check(p.toDate.Some?, ValidToDate)
    + Check(!AllSpace(p.reason), ReasonRequired)
    + Check(|Trim(p.reason)| <= 1000, ReasonLength)
  }

  /** The violations the time-off rules raise for `p`: a missing date, a blank reason, a reason over 1000 characters once trimmed. */
  predicate TimeOffReports(p: TimeOffPayload, v: Violation) {
    && v.BodyViolation?
    && (|| (v.rule == ValidFromDate && p.fromDate.None?)
        || (v.rule == ValidToDate && p.toDate.None?)
        || (v.rule == ReasonRequired && AllSpace(p.reason))
        || (v.rule == ReasonLength && |Trim(p.reason)| > 1000))
  }

  /** Each time-off rule reports a violation exactly when it fails. */
  lemma ValidateTimeOffRules(p: TimeOffPayload, v: Violation)
    ensures v in ValidateTimeOff(p) <==> TimeOffReports(p, v)
  {
    var from := Check(p.fromDate.Some?, ValidFromDate);
    var to := Check(p.toDate.Some?, ValidToDate);
    var required := Check(!AllSpace(p.reason), ReasonRequired);
    var length := Check(|Trim(p.reason)| <= 1000, ReasonLength);
    assert ValidateTimeOff(p) == from + to + required + length;
    InFour(v, from, to, required, length);
  }

  lemma InFour<T>(v: T, a: seq<T>, b: seq<T>, c: seq<T>, d: seq<T>)
    ensures v in a + b + c + d <==> v in a || v in b || v in c || v in d
  {
  }

  /** A reversed period passes validation: the validator leaves `toDate >= fromDate` to the schema. */
  lemma ValidateTimeOffAcceptsReversedPeriod()
    ensures ValidateTimeOff(TimeOffPayload(Some(86_400_000), Some(0), "family")) == []
  {
    assert !AllSpace("family") by { assert !IsSpace("family"[0]); }
    assert Trim("family") != [];
  }

  function SanitizeTimeOff(p: TimeOffPayload): (q: TimeOffPayload)
    ensures q.fromDate == p.fromDate && q.toDate == p.toDate
    ensures IsTrimmed(q.reason) && |q.reason| <= |p.reason|
    ensures WellFormedTimeOff(p) ==> 1 <= |q.reason| <= 1000
    ensures q == p.(reason := Trim(p.reason))
  {
    p.(reason := Trim(p.reason))
  }

  // ---- validateReview ----

  predicate WellFormedReview(p: ReviewPayload) {
    && (p.action == "approve" || p.action == "reject")
    && (p.rejectionReason.Some? ==> |Trim(p.rejectionReason.value)| <= 500)
  }

  /** A rejection reason is optional, whatever the action. */
  function ValidateReview(p: ReviewPayload): (r: seq<Violation>)
    ensures r == [] <==> WellFormedReview(p)
    ensures BodyViolation(ValidAction) in r <==> p.action != "approve" && p.action != "reject"
    ensures BodyViolation(RejectionReasonLength) in r
        <==> p.rejectionReason.Some? && |Trim(p.rejectionReason.value)| > 500
  {
    Check(p.action in ActionChoices, ValidAction)
    + Check(p.rejectionReason.None? || |Trim(p.rejectionReason.value)| <= 500, RejectionReasonLength)
  }

  function SanitizeReview(p: ReviewPayload): (q: ReviewPayload)
    ensures q.action == p.action
    ensures q.rejectionReason.Some? <==> p.rejectionReason.Some?
    ensures q.rejectionReason.Some? ==>
      IsTrimmed(q.rejectionReason.value) && q.rejectionReason.value == Trim(p.rejectionReason.value)
  {
    p.(rejectionReason := TrimOptional(p.rejectionReason))
  }

  // ---- validateRegister / validateLogin ----

  /** `isEmail` is taken as given: the model does not define e-mail syntax. */
  predicate WellFormedRegister(p: RegisterPayload, isEmail: string -> bool) {
    && !AllSpace(p.firstName) && !AllSpace(p.lastName)
    && isEmail(p.email)
    && |p.password| >= 6
    && !AllSpace(p.employeeId)
    && (p.role.Some? ==> p.role.value in RoleChoices)
  }

  function ValidateRegister(p: RegisterPayload, isEmail: string -> bool): (r: seq<Violation>)
    ensures r == [] <==> WellFormedRegister(p, isEmail)
    ensures BodyViolation(PasswordLength) in r <==> |p.password| < 6
    ensures BodyViolation(ValidEmail) in r <==> !isEmail(p.email)
    ensures BodyViolation(ValidRole) in r <==> p.role.Some? && p.role.value !in RoleChoices
    ensures BodyViolation(FirstNameRequired) in r <==> AllSpace(p.firstName)
    ensures BodyViolation(LastNameRequired) in r <==> AllSpace(p.lastName)
    ensures BodyViolation(EmployeeIdRequired) in r <==> AllSpace(p.employeeId)
  {
    // `trim().notEmpty()` fails exactly on an all-white-space value (the contract of `Trim`).
    var first := Check(!AllSpace(p.firstName), FirstNameRequired);
    var last := Check(!AllSpace(p.lastName), LastNameRequired);
    var email := Check(isEmail(p.email), ValidEmail);
    var password := Check(|p.password| >= 6, PasswordLength);
    var employeeId := Check(!AllSpace(p.employeeId), EmployeeIdRequired);
    var role := Check(p.role.None? || p.role.value in RoleChoices, ValidRole);
    InSix(first, last, email, password, employeeId, role);
    first + last + email + password + employeeId + role
  }

  lemma InSix<T>(a: seq<T>, b: seq<T>, c: seq<T>, d: seq<T>, e: seq<T>, f: seq<T>)
    ensures forall v :: v in a + b + c + d + e + f <==> v in a || v in b || v in c || v in d || v in e || v in f
  {
  }

  /** The password is only required to be non-empty; it is not trimmed. */
  function ValidateLogin(p: LoginPayload, isEmail: string -> bool): (r: seq<Violation>)
    ensures r == [] <==> isEmail(p.email) && p.password != []
    ensures BodyViolation(ValidEmail) in r <==> !isEmail(p.email)
    ensures BodyViolation(PasswordRequired) in r <==> p.password == []
  {
    Check(isEmail(p.email), ValidEmail)
    + Check(p.password != [], PasswordRequired)
  }
}

=== FILE: wrappers.dfy ===
/** Failure-carrying result types shared by every module of the model. */
module Wrappers {

  /** An optional value: a field that may be absent from a document or a payload. */
  datatype Option<+T> = None | Some(value: T) {

    /** The carried value, or `default` when absent. */
    function GetOr(default: T): T {
      match this
      case Some(v) => v
      case None => default
    }
  }

  /** The outcome of an operation: a new value or a typed error. */
  datatype Result<+T, +E> = Ok(value: T) | Err(error: E)
}
